=== FILE: README.md ===
# ko scaffolder core, modelled in Dafny

This project models the project-scaffolding core of the `ko` command-line tool (repository
`prismify-co/castle`). The model covers three pieces:

- **The Next.js framework factory** (`src/packages/frameworks/next/index.ts`). It is a pure function from the caller's options to:
  - the options handed to a new generator;
  - one dependency step whose package list depends on `version` and `typescript`;
  - seven custom steps.

  The custom steps' actions are abstract operations on the file system:
  - rewrite `package.json` with a fixed `scripts` object;
  - copy `next.config.js`;
  - touch `tsconfig.json`;
  - `mkdir -p` the project directories;
  - render the three pages;
  - copy the two style sheets;
  - download `.gitignore`.

  The pages and styles actions are loops in the source, so here they are methods with `while` loops, proved against a specification function (`CopyAll`).
- **The generator** (`src/packages/generator/index.ts`). It is a class with:
  - fixed options;
  - a step list that it shares by reference with its executor;
  - an append-only event log.

  `init`, `#commit` and `generate` are methods on the process state. The process state is a `Host` object holding:
  - the set of existing paths;
  - file contents;
  - the working directory;
  - the log of external commands.

  Each method is proved equal to a specification function on the `World` value (`InitSpec`, `CommitSpec`, `GenerateSpec`). The properties are lemmas about those functions.
- **The config bootstrapper** (`src/packages/config/index.ts`). `Config.Init` writes `ko.config.json` only when nothing exists at that path.

Code outside the model is replaced by outcomes that the caller supplies. This covers the package manager, git and the executor's run (see `Generation.Collaborators`), and the network download, which is the `download` parameter of `NextFramework.ApplyEffect` and `NextFramework.Perform`. Each outcome either settles or throws, so every error path is modelled except a failing write, since `writeSync` always succeeds here.

Files: `common.dfy` (Option, Result, Outcome, Error, truthiness), `paths.dfy` (`path.join` and `path.resolve`), `json.dfy` (JSON values and JavaScript object spread), `text.dfy` (`String.prototype.replace` with a string pattern), `steps.dfy` (step declarations and the shared step list), `environment.dfy` (the process state), `generator.dfy` and `generator_properties.dfy`, `next.dfy` and `next_properties.dfy`, `config.dfy`.

Three behaviours of the code matter for the model:

- The commit is awaited with no `try`/`catch`, so a failure in `git add` or `git commit` rejects `generate()`. No `Success!` or `end` event follows. It is not downgraded to a non-fatal event (`GenerateOutcome`, `CommitIff`).
- `init` never assigns `options.path`. The generator's options are a `const` field. With no `path`, the commit checks `.git` relative to the working directory. `init` has already moved into the new project directory, so the commit lands there (`CommitWithoutPath`).
- `init` compares the resolved start directory (`options.cwd || process.cwd()`) with `options.path`. The closing "cd into" hint compares the raw `options.cwd` with `options.path` (`ClosingNotices`).

Because `init` moves the process into the project directory, a second `init` from the same generator with no `options.cwd` starts from that directory. It finds the first one's directory again when `options.path` names that directory, so that it does not relocate (`SecondInitWithPathStays`); with no `options.path` either, it creates `<cwd>/<name>/<name>` and runs `git init` there as well (`SecondInitWithoutCwdNests`). An absolute `options.cwd` always leads back to the same project directory (`SecondInitSkipsGit`). A relative `options.cwd` is resolved against whatever directory the process is in at the time: already in the first `init`, `existsSync(join(cwd, '.git'))` and `git(cwd)` resolve it against the directory just entered, so `git init` targets `<project directory>/<cwd>/<name>` rather than the project directory (`InitRelativeCwd`).

## Model

| member | source | states |
|---|---|---|
| Paths.Join | src/packages/generator/index.ts:79 | `join(a, b)`: an empty side contributes nothing; otherwise the result extends `a` |
| Paths.Resolve | src/packages/frameworks/next/index.ts:69 | `resolve(p)` keeps an absolute path and joins a relative one onto the working directory |
| Json.Assign | src/packages/frameworks/next/index.ts:71-78 | writing `scripts` after the spread members keeps the length when the key exists and adds one member otherwise; every other member stays at its index |
| Json.SpreadWith | src/packages/frameworks/next/index.ts:71-78 | `{...pkg, scripts}` is an object in which `scripts` reads back the new value and every other key reads back what the spread of `pkg` holds |
| Json.LookupAssign | src/packages/frameworks/next/index.ts:71-78 | in `{...pkg, scripts}`, `scripts` reads back the new value and every other key reads back the old one |
| Json.KeysAssign | src/packages/frameworks/next/index.ts:71-78 | `{...pkg, scripts}` keeps every key in its position and appends `scripts` only when it was absent |
| Json.AssignSpec | src/packages/frameworks/next/index.ts:71-78 | for an object with distinct keys, combines the two facts above and keeps the keys distinct |
| Json.LookupAt | src/packages/config/index.ts:32-39 | a property read finds the first member carrying that key |
| Text.ReplaceFirst | src/packages/frameworks/next/index.ts:115 | `s.replace(pat, rep)` changes the length at most by trading one `pat` for one `rep`: the result is as long as `s` or as long as `s` with `\|pat\|` characters exchanged for `\|rep\|` |
| Text.ReplaceFirstAnywhere | src/packages/frameworks/next/index.ts:115 | wherever the first `txt` lies, exactly that occurrence is replaced |
| Text.ReplaceAbsentWhen | src/packages/frameworks/next/index.ts:115 | a string without `txt` comes back unchanged |
| Text.ReplaceFirstOccurrence | src/packages/frameworks/next/index.ts:115 | `file.replace('txt', ext)` replaces exactly the first occurrence of `txt` |
| Text.ReplaceAbsent | src/packages/frameworks/next/index.ts:115 | `replace` leaves a string without `txt` unchanged |
| Environment.Exists | src/packages/generator/index.ts:89 | `existsSync` holds for every file of a well-formed state |
| Environment.ReadFile | src/packages/frameworks/next/index.ts:116 | `readSync` returns the content of an existing file and throws with the resolved path otherwise |
| Environment.WriteFile | src/packages/frameworks/next/index.ts:117 | `writeSync` creates or replaces exactly the resolved file, which then reads back the written content; nothing else changes |
| Environment.MakeDir | src/packages/generator/index.ts:80 | `mkdir -p` adds at most the resolved directory, after which `chdir` into it succeeds unless a file is in the way |
| Environment.ChangeDir | src/packages/generator/index.ts:83 | `process.chdir` moves into the resolved path when it is an existing directory, and throws with that path otherwise |
| Environment.MakeDirs | src/packages/frameworks/next/index.ts:104 | `mkdir -p` of several directories: every named directory exists afterwards unless a file is in the way, no other path appears, and files, working directory and command log are untouched |
| Environment.Host.MakeDirectory | src/packages/generator/index.ts:80 | `mkdir -p` adds the directory unless a file is in the way, in which case nothing changes |
| Environment.Host.PathExists | src/packages/generator/index.ts:89 | `existsSync` answers exactly `Exists` on the current state |
| Environment.Host.Read | src/packages/frameworks/next/index.ts:116 | `readSync` returns exactly what `ReadFile` gives on the current state and changes nothing |
| Environment.Host.Write | src/packages/frameworks/next/index.ts:117 | `writeSync` leaves exactly the state of `WriteFile` |
| Environment.Host.MakeDirectories | src/packages/frameworks/next/index.ts:104 | `mkdir('-p', ...)` leaves exactly the state of `MakeDirs` |
| Environment.Host.ChangeDirectory | src/packages/generator/index.ts:83 | `process.chdir` moves into an existing directory and throws, changing nothing, otherwise |
| Generation.Executor.constructor | src/packages/generator/index.ts:32-34 | the executor holds the generator's step list itself, not a copy, plus a copy of the options |
| Generation.Executor.Run | src/packages/generator/index.ts:110 | the run is recorded with the steps as they stand when it starts; its outcome is supplied |
| Generation.Generator.constructor | src/packages/generator/index.ts:29-35 | a new generator has the given options, an empty step list shared with its executor and no events |
| Generation.Generator.AddDependencyStep | src/packages/frameworks/next/index.ts:45-65 | appends one dependency step and returns the generator itself, for chaining |
| Generation.Generator.AddCustomStep | src/packages/frameworks/next/index.ts:66-80 | appends one custom step with its condition and action and returns the generator itself |
| Generation.Generator.Emit | src/packages/generator/index.ts:101-125 | an emitted event is appended to the log, after every earlier one |
| Generation.StartDir | src/packages/generator/index.ts:73 | `options.cwd \|\| process.cwd()`: a non-empty `options.cwd` wins, otherwise the working directory |
| Generation.Relocates | src/packages/generator/index.ts:77 | with no `options.path`, `init` always relocates |
| Generation.ProjectDir | src/packages/generator/index.ts:77-79 | without relocation the start directory itself; with it, a path strictly extending the start directory; absolute whenever the start directory is |
| Generation.Enter | src/packages/generator/index.ts:77-84 | entering issues no command and touches no file; it lands in the resolved project directory when `init` relocates and stays put otherwise |
| Generation.InitManifest | src/packages/generator/index.ts:87 | the package-manager initialisation is always issued, in the current directory; when it settles a manifest exists there |
| Generation.InitGit | src/packages/generator/index.ts:89-92 | `git init` is issued, once, iff git is requested and `.git` is absent; files and the working directory are untouched |
| Generation.InitSpec | src/packages/generator/index.ts:72-95 | `init` only adds paths, issues at most two commands after the earlier ones, and when it settles a `package.json` exists in the new working directory |
| Generation.CommitSpec | src/packages/generator/index.ts:129-140 | `#commit` touches no path, file or working directory and issues at most two commands after the earlier ones |
| Generation.PhasesSpec | src/packages/generator/index.ts:109-111 | the three awaited phases only add paths and only append commands |
| Generation.GenerateSpec | src/packages/generator/index.ts:100-127 | `generate` always opens with `start` and the creation notice, and ends with `end` exactly when it settles |
| Generation.Generator.Init | src/packages/generator/index.ts:72-95 | `init` leaves exactly the state and outcome of `InitSpec`: enter the directory, initialise the manifest, initialise git |
| Generation.Generator.Commit | src/packages/generator/index.ts:129-140 | `#commit` leaves exactly the state and outcome of `CommitSpec` |
| Generation.Generator.Phases | src/packages/generator/index.ts:109-111 | `init`, `executor.run` and `#commit` are awaited in turn, the first rejection ending the sequence, leaving exactly the state of `PhasesSpec` |
| Generation.Generator.Generate | src/packages/generator/index.ts:100-127 | `generate` leaves exactly the state, events and outcome of `GenerateSpec`, and settles with the generator itself |
| Generation.NewGenerator | src/packages/generator/index.ts:143-145 | `generator(options)` returns a fresh generator over those options with no steps |
| GeneratorProperties.GenerateEvents | src/packages/generator/index.ts:101-125 | `start` and the creation notice come first; on success the closing notices follow, ending with `end`; on a rejection nothing follows |
| GeneratorProperties.ClosingNotices | src/packages/generator/index.ts:114-125 | `Success!` comes first, the `cd` hint appears iff `options.cwd !== options.path`, and `end` comes last |
| GeneratorProperties.GenerateOutcome | src/packages/generator/index.ts:100-127 | a rejection of `init`, `run` or the commit becomes the rejection of `generate`, in that priority |
| GeneratorProperties.GeneratePhaseOrder | src/packages/generator/index.ts:109-111 | the executor runs only after `init` succeeded, right after its commands; the commit commands come only after a successful run |
| GeneratorProperties.InitCalls | src/packages/generator/index.ts:85-92 | `init` issues the manifest initialisation first, then at most one `git init`; a successful `init` issued at least the first; a failed `chdir` issues nothing |
| GeneratorProperties.InitDirectory | src/packages/generator/index.ts:73-84 | when the start directory differs from `path` and the directory is entered, `join(start, name)` exists afterwards and is the working directory, whatever the later phases do; a failed `chdir` rejects, issuing nothing and staying put; with no relocation nothing is entered and the working directory stays |
| GeneratorProperties.MakeDirIdempotent | src/packages/generator/index.ts:80 | `mkdir -p` twice is `mkdir -p` once, and a no-op on an existing directory |
| GeneratorProperties.InitGitWhenAbsent | src/packages/generator/index.ts:87-92 | after entering the directory, the manifest is initialised and `git init` runs iff git is requested and `.git` is absent |
| GeneratorProperties.InitManifestFrame | src/packages/generator/index.ts:87 | the manifest initialisation keeps the working directory and every path and touches no file but `package.json` |
| GeneratorProperties.InitGitFrame | src/packages/generator/index.ts:89-92 | a successful git phase leaves `.git` in place and issues nothing when `.git` already exists |
| GeneratorProperties.InitPassed | src/packages/generator/index.ts:72-95 | a successful `init` entered its directory and initialised the manifest before the git phase |
| GeneratorProperties.FirstInitLeaves | src/packages/generator/index.ts:77-92 | after a successful `init` from an absolute `cwd`, the project directory is a directory and holds `.git` when git was wanted |
| GeneratorProperties.InitSkipsPresentGit | src/packages/generator/index.ts:89-92 | when `.git` already exists in an absolute project directory, `init` issues no `git init`, whether or not it gets into the directory |
| GeneratorProperties.SecondInitSkipsGit | src/packages/generator/index.ts:89-92 | a second `init` from the same absolute `cwd` resolves the same directory and never runs `git init` again |
| GeneratorProperties.InitIntoFreshDirectory | src/packages/generator/index.ts:72-95 | with no `cwd`, a `path` other than the absolute working directory, git wanted, both initialisations settling, `join(cwd, name)` not a file and holding no `.git`, `init` creates and enters `join(cwd, name)`, issues the manifest initialisation and `git init` there, and adds paths and files only inside it |
| GeneratorProperties.FirstInitFromP | src/packages/generator/index.ts:72-95 | from `/p` with name `x`, no `cwd`, a `path` other than `/p` and git wanted, `init` enters `/p/x`, issues the manifest initialisation and `git init` there and adds only `/p/x`, its manifest and its `.git` |
| GeneratorProperties.SecondInitWithPathStays | src/packages/generator/index.ts:73-92 | with `path` naming the project directory, a second `init` from `/p` with name `x` stays in `/p/x`, issues only the manifest initialisation and no second `git init` |
| GeneratorProperties.SecondInitWithoutCwdNests | src/packages/generator/index.ts:73-92 | with neither `cwd` nor `path`, a second `init` from `/p` with name `x` nests into `/p/x/x` and runs `git init` a second time |
| GeneratorProperties.InitRelativeCwd | src/packages/generator/index.ts:73-91 | with the relative `cwd` `foo` and name `x` from `/p`, `init` enters `/p/foo/x` but runs `git init` on `/p/foo/x/foo/x`, since `join(cwd, name)` is resolved again after the `chdir` |
| GeneratorProperties.CommitIff | src/packages/generator/index.ts:131-139 | `git add *` then the commit with `Add initial files` happen iff git is requested and `.git` exists under `path \|\| ''`; a failed add stops before the commit |
| GeneratorProperties.CommitWithoutPath | src/packages/generator/index.ts:131-138 | with no `path`, the commit runs in the project directory that `init` entered |
| NextFramework.FactoryOptions | src/packages/frameworks/next/index.ts:26-44 | the generator gets `framework = 'next'` whatever was passed in, `dryRun` defaulting to false, and the other fields unchanged |
| NextFramework.Packages | src/packages/frameworks/next/index.ts:47-64 | `next` carries `version` unchanged; `react` and `react-dom` get `16.x` when `version` contains `9`, otherwise `version` when non-empty, otherwise `latest`; the three TypeScript dev packages are added iff `typescript` is truthy |
| NextFramework.ReactVersion | src/packages/frameworks/next/index.ts:51-55 | the `react` version is never empty: `16.x`, `latest`, or the requested version when it contains no `9` |
| NextFramework.FactorySteps | src/packages/frameworks/next/index.ts:45-145 | eight steps: the dependency step with the package list first, then seven custom steps of which only the tsconfig step has a condition, `typescript !== false` |
| NextFramework.PageName | src/packages/frameworks/next/index.ts:115 | a template whose only `txt` is its suffix gets `tsx` or `js` in its place; a name without `txt` is kept |
| NextFramework.SetScriptsSpec | src/packages/frameworks/next/index.ts:68-79 | the scripts step succeeds iff `package.json` holds a JSON document, and then `scripts` reads back the new object; a failure changes nothing; the working directory and command log stay |
| NextFramework.TouchSpec | src/packages/frameworks/next/index.ts:95 | after `touch` the path exists; a new file is empty; on a well-formed state no existing file changes |
| NextFramework.FetchSpec | src/packages/frameworks/next/index.ts:137-144 | the download is always issued; the step succeeds iff it does, and `.gitignore` then holds the downloaded text; a failed download writes nothing |
| NextFramework.Factory | src/packages/frameworks/next/index.ts:26-146 | the factory returns a fresh generator with the factory options and exactly the declared steps, which its executor sees too |
| NextFramework.CopyAll | src/packages/frameworks/next/index.ts:114-118 | copying keeps the working directory and command log and only adds paths and files; an unreadable first template throws and changes nothing |
| NextFramework.WritePagesAction | src/packages/frameworks/next/index.ts:109-119 | the pages loop leaves exactly the state and outcome of copying the page templates in order |
| NextFramework.WriteStylesAction | src/packages/frameworks/next/index.ts:123-133 | the styles loop leaves exactly the state and outcome of copying the two style sheets in order |
| NextFramework.SetScriptsAction | src/packages/frameworks/next/index.ts:68-79 | the scripts action leaves exactly the state and outcome of `SetScriptsSpec` |
| NextFramework.ApplyEffect | src/packages/frameworks/next/index.ts:68-144 | no custom step moves the working directory or removes a path; only the `.gitignore` step issues a command, the download; `touch` and `mkdir -p` never throw; a failed scripts or `next.config.js` step changes nothing |
| NextFramework.Perform | src/packages/frameworks/next/index.ts:66-145 | running any custom step's action leaves exactly the state and outcome of `ApplyEffect` |
| NextProperties.FactoryStepsShape | src/packages/frameworks/next/index.ts:45-145 | one dependency step then seven custom steps, with the fixed names in order; only the tsconfig step has a condition, `typescript !== false` |
| NextProperties.TsconfigWithoutTypescript | src/packages/frameworks/next/index.ts:57-97 | with `typescript` absent, the tsconfig step is enabled although no TypeScript package is installed |
| NextProperties.PageNames | src/packages/frameworks/next/index.ts:112-115 | `_app.txt`, `_document.txt` and `index.txt` become `.tsx` with TypeScript and `.js` without |
| NextProperties.PageCopiesShape | src/packages/frameworks/next/index.ts:112-118 | the pages step reads `pages/<file>` under the templates and writes, in order, `pages/` plus the replaced name of each of the three templates, each rendered with the project name |
| NextProperties.TxtPageName | src/packages/frameworks/next/index.ts:115 | in `stem.txt` with no `tx` in `stem`, the extension is the first `txt` |
| NextProperties.SetScriptsOnObject | src/packages/frameworks/next/index.ts:69-78 | on an object manifest, `scripts` becomes exactly the new object; every other field keeps its value and position; no other file changes |
| NextProperties.ScriptsKeys | src/packages/frameworks/next/index.ts:73-77 | the new `scripts` are exactly `dev`, `build` and `start` with the `next` commands |
| NextProperties.SetScriptsWithoutManifest | src/packages/frameworks/next/index.ts:69-70 | without `package.json` the scripts step throws and changes nothing |
| NextProperties.CopyAllReadable | src/packages/frameworks/next/index.ts:114-132 | when every template is readable, the copies succeed and add exactly their targets |
| NextProperties.CopyAllContents | src/packages/frameworks/next/index.ts:114-132 | when every template is readable and the resolved targets are distinct from each other and from every source, each target holds its template's content, rendered with the project name for pages, and every other file keeps its content |
| NextProperties.SetScriptsWrites | src/packages/frameworks/next/index.ts:69-78 | on an object manifest the scripts step writes the spread members with `scripts` assigned |
| NextProperties.CopyAllFirstMissing | src/packages/frameworks/next/index.ts:116 | a missing template stops the loop with that path's error before anything is written |
| KoConfig.Config.constructor | src/packages/config/index.ts:21-23 | the options are stored once |
| KoConfig.Config.Init | src/packages/config/index.ts:24-41 | `init` leaves exactly the state of `ConfigInitSpec` |
| KoConfig.NewConfig | src/packages/config/index.ts:44-46 | `config(options)` returns a fresh config over those options |
| KoConfig.ConfigDocument | src/packages/config/index.ts:32-39 | the document is an object with distinct keys in which `name` is the caller's name, `recipes` is empty and `framework` holds the caller's choice under `name` and `current` under `version` |
| KoConfig.ConfigInitSpec | src/packages/config/index.ts:24-40 | after `init` the config path exists, holding the document when nothing was there and left alone otherwise; the working directory and command log stay, and on a well-formed state no other file changes |
| KoConfig.ConfigDocumentShape | src/packages/config/index.ts:32-39 | the document has exactly the keys `name`, `framework`, `recipes`, with the caller's name and empty recipes; `framework` holds the caller's whole choice under `name` and version `current` |
| KoConfig.ConfigVersionIsCurrent | src/packages/config/index.ts:36 | `framework.version` is `current` whatever version the caller chose |
| KoConfig.ConfigInitPresent | src/packages/config/index.ts:25-28 | when anything exists at `ko.config.json`, nothing is written |
| KoConfig.ConfigInitAbsent | src/packages/config/index.ts:25-40 | otherwise exactly one file, `ko.config.json` in the working directory, is written with the document, and nothing else changes |
| KoConfig.ConfigInitIdempotent | src/packages/config/index.ts:24-41 | calling `init` twice leaves the same state as calling it once |
| KoConfig.InitTwice | src/packages/config/index.ts:24-41 | two `init` calls on one config object write the file once |

## Left out

- The `subscribe`, `subscribeOnce`, `unsubscribe` and `unsubscribeAll` wrappers over Node's event emitter are not modelled. They belong to a foreign library. Emission is modelled as appending to the generator's event log.
- The executor, the step builder and the package manager are not part of this model. Their implementations lie outside the modelled files.
  - `executor.run` is recorded with its steps, and its outcome is supplied. What the steps do to the files during the run is not composed into `generate`. Each step action is modelled separately, in `NextFramework.ApplyEffect`.
  - Skipping a step whose condition is false is the executor's job, so it is not modelled.
  - `pkgm().initSync()` is modelled as a supplied outcome. When it succeeds, a supplied manifest is written if none exists.
- `simple-git` `init`, `add` and `commit` have supplied outcomes. Any check simple-git makes on the directory is part of that outcome.
- The `.gitignore` download through `github-content` is a network call. Its result is supplied.
- Template rendering with lodash is left opaque: the written content is `Rendered(template, name)`. `chalk` colouring and `debug` logging are also not modelled, and event payloads are a `Message` datatype.
- JSON text is not modelled. A file either holds a JSON document or text. A file holding text fails when read as JSON. Serialisation whitespace and non-integer numbers are not represented.
- JavaScript lists integer-like keys of an object first. When a manifest is spread, `Json.SpreadMembers` keeps the members in stored order instead.
- Paths are not normalised (`..`, `.`, repeated separators). `mkdir -p` records only the target directory, not its ancestors.
- `writeSync` always succeeds in the model. Missing parent directories and permissions are not modelled.
- `touch` on an existing file changes only timestamps, which the model does not record.
- `String.prototype.replace` is modelled only for replacements without `$` patterns. The source's replacements are `tsx` and `js`.
- `dryRun` is passed to the generator and its executor but is not read by the modelled code.
- `src/packages/frameworks/types/index.d.ts` holds only a type alias.
- The package manager's own tests run real npm and yarn processes; they are not modelled.

=== FILE: common.dfy ===
/** Shared failure-carrying datatypes and JavaScript truthiness. */
module Common {

  /** A value that may be absent (`undefined` in the source). */
  datatype Option<+T> = None | Some(value: T) {
    function GetOr(default: T): T {
      if Some? then value else default
    }
  }

  /** Why an operation threw. */
  datatype Error =
    | Missing(path: string)      // a file that was read does not exist
    | Unparsable(path: string)   // a file read as JSON does not hold a JSON document
    | Collaborator(message: string)  // an external tool (package manager, git, network) failed

  /** The settled state of a promise that resolves to nothing: fulfilled or rejected. */
  datatype Outcome = Pass | Fail(error: Error)

  /** The settled state of a promise that resolves to a value. */
  datatype Result<+T> = Ok(value: T) | Err(error: Error)

  /** JavaScript truthiness of an optional boolean: only a present `true` is truthy. */
  predicate Truthy(b: Option<bool>) {
    b == Some(true)
  }
}

=== FILE: config.dfy ===
/** The `ko.config.json` bootstrapper: written once, never overwritten. */
module KoConfig {
  import opened Common
  import opened Paths
  import opened Json
  import opened Environment

  const ConfigFile := "ko.config.json"

  datatype FrameworkName = Nuxt | Next | Sapper

  /** The framework choice the caller passes: a name and a requested version. */
  datatype FrameworkChoice = FrameworkChoice(name: FrameworkName, version: string)

  datatype ConfigOptions = ConfigOptions(name: string, framework: FrameworkChoice)

  function FrameworkLabel(f: FrameworkName): string {
    match f
    case Nuxt => "nuxt"
    case Next => "next"
    case Sapper => "sapper"
  }

  /** The caller's framework choice as the JSON object it serialises to. */
  function ChoiceJson(f: FrameworkChoice): Json {
    JObject([Member("name", JString(FrameworkLabel(f.name))), Member("version", JString(f.version))])
  }

  /** The document `init` writes: `{name, framework: {name: options.framework, version: 'current'},
      recipes: []}`. The whole framework choice lands under `framework.name`. */
  function ConfigDocument(o: ConfigOptions): (r: Json)
    ensures r.JObject? && DistinctKeys(r.members)
    ensures Lookup(r.members, "name") == Some(JString(o.name))
    ensures Lookup(r.members, "recipes") == Some(JArray([]))
    ensures var f := Lookup(r.members, "framework");
      && f.Some? && f.value.JObject?
      && Lookup(f.value.members, "name") == Some(ChoiceJson(o.framework))
      && Lookup(f.value.members, "version") == Some(JString("current"))
  {
    var ms := [
      Member("name", JString(o.name)),
      Member("framework", JObject([Member("name", ChoiceJson(o.framework)), Member("version", JString("current"))])),
      Member("recipes", JArray([]))];
    assert Lookup(ms[2..], "recipes") == Some(JArray([]));
    JObject(ms)
  }

  /** `init()`: writes the document at `ko.config.json` in the working directory unless something
      already exists there. */
  function ConfigInitSpec(w: World, o: ConfigOptions): (r: World)
    ensures Exists(r, ConfigFile)
    ensures r.cwd == w.cwd && r.calls == w.calls && w.paths <= r.paths
    ensures Exists(w, ConfigFile) ==> r == w
    ensures !Exists(w, ConfigFile) ==> ReadFile(r, ConfigFile) == Ok(JsonDoc(ConfigDocument(o)))
    ensures WellFormed(w) ==> WellFormed(r) && forall q :: q in w.files ==> q in r.files && r.files[q] == w.files[q]
  {
    if Exists(w, ConfigFile) then w else WriteFile(w, ConfigFile, JsonDoc(ConfigDocument(o)))
  }

  class Config {
    const options: ConfigOptions

    constructor (options: ConfigOptions)
      ensures this.options == options
    {
      this.options := options;
    }

    method Init(host: Host)
      modifies host
      ensures host.State() == ConfigInitSpec(old(host.State()), options)
    {
      var present := host.PathExists(ConfigFile);
      if present {
        return;
      }
      host.Write(ConfigFile, JsonDoc(ConfigDocument(options)));
    }
  }

  /** The exported `config(options)` function. */
  method NewConfig(options: ConfigOptions) returns (c: Config)
    ensures fresh(c) && c.options == options
  {
    c := new Config(options);
  }

  /** The written document has exactly the keys `name`, `framework` and `recipes`, in that order;
      `name` is the caller's, `recipes` is empty, and `framework` holds the caller's whole choice
      under `name` and the fixed version `current`. */
  lemma ConfigDocumentShape(o: ConfigOptions)
    ensures var d := ConfigDocument(o);
      && d.JObject? && Keys(d.members) == ["name", "framework", "recipes"]
      && Lookup(d.members, "name") == Some(JString(o.name))
      && Lookup(d.members, "recipes") == Some(JArray([]))
      && var f := Lookup(d.members, "framework");
      && f.Some? && f.value.JObject? && Keys(f.value.members) == ["name", "version"]
      && Lookup(f.value.members, "name") == Some(ChoiceJson(o.framework))
      && Lookup(f.value.members, "version") == Some(JString("current"))
  {
    LookupAt(ConfigDocument(o).members, 2);
  }

  /** The recorded framework version is `current` whatever version the caller asked for. */
  lemma ConfigVersionIsCurrent(o: ConfigOptions, v: string)
    ensures var o' := o.(framework := o.framework.(version := v));
      Lookup(ConfigDocument(o').members[1].value.members, "version")
        == Lookup(ConfigDocument(o).members[1].value.members, "version") == Some(JString("current"))
  {
  }

  /** When anything exists at `ko.config.json`, `init` writes nothing. */
  lemma ConfigInitPresent(w: World, o: ConfigOptions)
    requires Exists(w, ConfigFile)
    ensures ConfigInitSpec(w, o) == w
  {
  }

  /** Otherwise it writes exactly one file, `ko.config.json` in the working directory, holding the
      document, and changes nothing else. */
  lemma ConfigInitAbsent(w: World, o: ConfigOptions)
    requires !Exists(w, ConfigFile)
    ensures var r := ConfigInitSpec(w, o);
      var p := Resolve(w.cwd, ConfigFile);
      && r.paths == w.paths + {p}
      && r.files.Keys == w.files.Keys + {p}
      && r.files[p] == JsonDoc(ConfigDocument(o))
      && (forall q :: q in w.files && q != p ==> r.files[q] == w.files[q])
      && r.cwd == w.cwd && r.calls == w.calls
  {
  }

  /** Calling `init` twice leaves the same state as calling it once. */
  lemma ConfigInitIdempotent(w: World, o: ConfigOptions, o': ConfigOptions)
    ensures ConfigInitSpec(ConfigInitSpec(w, o), o') == ConfigInitSpec(w, o)
  {
  }

  /** A caller's view: two `init` calls on the same config object write the file once. */
  method InitTwice(host: Host, o: ConfigOptions)
    modifies host
    ensures host.State() == ConfigInitSpec(old(host.State()), o)
  {
    var c := NewConfig(o);
    c.Init(host);
    c.Init(host);
    ConfigInitIdempotent(old(host.State()), o, o);
  }
}

=== FILE: environment.dfy ===
/** The process-wide state the scaffolder works on: the file system, the working directory and the
    external commands issued so far. */
module Environment {
  import opened Common
  import opened Paths
  import opened Json
  import opened Steps

  /** What a file holds: text, a JSON document (its serialised text), or a page template
      rendered with a project name. */
  datatype Content = Plain(text: string) | JsonDoc(doc: Json) | Rendered(template: Content, name: string)

  /** External commands, in the order the process issued them. */
  datatype Call =
    | ManifestInit(dir: Path)
    | GitInit(dir: Path)
    | ExecutorRun(steps: seq<Step>)
    | GitAdd(dir: Path, pattern: string)
    | GitCommit(dir: Path, message: string)
    | Download(file: string)

  /** Existing paths (files and directories, absolute), file contents, the process working
      directory and the log of external commands. */
  datatype World = World(paths: set<Path>, files: map<Path, Content>, cwd: Path, calls: seq<Call>)

  /** Every file is an existing path. */
  predicate WellFormed(w: World) {
    w.files.Keys <= w.paths
  }

  /** `existsSync(p)`: true for directories and files alike. */
  predicate Exists(w: World, p: Path)
    ensures WellFormed(w) && Resolve(w.cwd, p) in w.files ==> Exists(w, p)
  {
    Resolve(w.cwd, p) in w.paths
  }

  /** `readSync(p)`: throws when `p` is not a file. */
  function ReadFile(w: World, p: Path): (r: Result<Content>)
    ensures r.Ok? <==> Resolve(w.cwd, p) in w.files
    ensures r.Ok? ==> r.value == w.files[Resolve(w.cwd, p)]
    ensures r.Err? ==> r.error == Missing(Resolve(w.cwd, p))
  {
    var a := Resolve(w.cwd, p);
    if a in w.files then Ok(w.files[a]) else Err(Missing(a))
  }

  /** `writeSync(p, c)`: creates or replaces the file. */
  function WriteFile(w: World, p: Path, c: Content): (r: World)
    ensures r.cwd == w.cwd && r.calls == w.calls
    ensures r.paths == w.paths + {Resolve(w.cwd, p)}
    ensures r.files == w.files[Resolve(w.cwd, p) := c]
    ensures ReadFile(r, p) == Ok(c)
    ensures WellFormed(w) ==> WellFormed(r)
  {
    var a := Resolve(w.cwd, p);
    w.(paths := w.paths + {a}, files := w.files[a := c])
  }

  /** `mkdir -p p`: a no-op when `p` already exists; reports (without throwing) and does nothing
      when a file stands in the way. */
  function MakeDir(w: World, p: Path): (r: World)
    ensures r.files == w.files && r.cwd == w.cwd && r.calls == w.calls
    ensures w.paths <= r.paths <= w.paths + {Resolve(w.cwd, p)}
    ensures Resolve(w.cwd, p) !in w.files ==> ChangeDir(r, p).Ok?
    ensures WellFormed(w) ==> WellFormed(r)
  {
    var a := Resolve(w.cwd, p);
    if a in w.files then w else w.(paths := w.paths + {a})
  }

  /** `process.chdir(p)`: throws unless `p` is an existing directory. */
  function ChangeDir(w: World, p: Path): (r: Result<World>)
    ensures r.Ok? ==> r.value == w.(cwd := Resolve(w.cwd, p)) && Exists(r.value, "")
    ensures r.Err? ==> r.error == Missing(Resolve(w.cwd, p)) && (Resolve(w.cwd, p) !in w.paths || Resolve(w.cwd, p) in w.files)
  {
    var a := Resolve(w.cwd, p);
    if a in w.paths && a !in w.files then Ok(w.(cwd := a)) else Err(Missing(a))
  }

  /** `mkdir -p d1 d2 ...`: each directory in turn. */
  function MakeDirs(w: World, dirs: seq<Path>): (r: World)
    ensures r.files == w.files && r.cwd == w.cwd && r.calls == w.calls
    ensures w.paths <= r.paths
    ensures forall d :: d in dirs ==> Resolve(w.cwd, d) in r.paths || Resolve(w.cwd, d) in w.files
    ensures forall q :: q in r.paths ==> q in w.paths || exists d :: d in dirs && q == Resolve(w.cwd, d)
    decreases dirs
  {
    if dirs == [] then w else MakeDirs(MakeDir(w, dirs[0]), dirs[1..])
  }

  function Record(w: World, c: Call): World {
    w.(calls := w.calls + [c])
  }

  /** The running process, whose file system and working directory every component shares. */
  class Host {
    var paths: set<Path>
    var files: map<Path, Content>
    var cwd: Path
    var calls: seq<Call>

    function State(): World
      reads this
    {
      World(paths, files, cwd, calls)
    }

    constructor (w: World)
      ensures State() == w
    {
      paths, files, cwd, calls := w.paths, w.files, w.cwd, w.calls;
    }

    method PathExists(p: Path) returns (b: bool)
      ensures b == Exists(State(), p)
    {
      b := Resolve(cwd, p) in paths;
    }

    method Read(p: Path) returns (r: Result<Content>)
      ensures r == ReadFile(State(), p)
    {
      var a := Resolve(cwd, p);
      if a in files {
        r := Ok(files[a]);
      } else {
        r := Err(Missing(a));
      }
    }

    method Write(p: Path, c: Content)
      modifies this
      ensures State() == WriteFile(old(State()), p, c)
    {
      var a := Resolve(cwd, p);
      paths := paths + {a};
      files := files[a := c];
    }

    method MakeDirectory(p: Path)
      modifies this
      ensures State() == MakeDir(old(State()), p)
    {
      var a := Resolve(cwd, p);
      if a !in files {
        paths := paths + {a};
      }
    }

    method MakeDirectories(dirs: seq<Path>)
      modifies this
      ensures State() == MakeDirs(old(State()), dirs)
    {
      paths := MakeDirs(State(), dirs).paths;
    }

    method ChangeDirectory(p: Path) returns (r: Outcome)
      modifies this
      ensures ChangeDir(old(State()), p).Ok? ==> r == Pass && State() == ChangeDir(old(State()), p).value
      ensures ChangeDir(old(State()), p).Err? ==> r == Fail(ChangeDir(old(State()), p).error) && State() == old(State())
    {
      var a := Resolve(cwd, p);
      if a in paths && a !in files {
        cwd := a;
        r := Pass;
      } else {
        r := Fail(Missing(a));
      }
    }

    method Issue(c: Call)
      modifies this
      ensures State() == Record(old(State()), c)
    {
      calls := calls + [c];
    }

    method AddPath(p: Path)
      modifies this
      ensures State() == old(State()).(paths := old(paths) + {p})
    {
      paths := paths + {p};
    }
  }
}

=== FILE: generator.dfy ===
/** The generator: it prepares the project directory, runs the executor over the declared steps,
    commits the result and reports its progress as events. */
module Generation {
  import opened Common
  import opened Paths
  import opened Json
  import opened Steps
  import opened Environment

  /** The options a generator is built with. `extra` holds the pass-through fields. */
  datatype GeneratorOptions = GeneratorOptions(
    name: string,
    framework: string,
    cwd: Option<Path>,
    path: Option<Path>,
    dryRun: bool,
    git: Option<bool>,
    extra: map<string, Json>)

  /** The payloads of `'event'` notices; their colouring is not modelled. */
  datatype Message =
    | Creating(framework: string, target: Path)
    | Succeeded
    | CdInto(name: string)

  datatype Event = Start | Notice(message: Message) | End

  /** How each call into code outside the model settles, and the manifest the package manager
      writes when it creates one. */
  datatype Collaborators = Collaborators(
    manifestInit: Outcome,
    initialManifest: Json,
    gitInit: Outcome,
    run: Outcome,
    gitAdd: Outcome,
    gitCommit: Outcome)

  /** The world after a phase, and whether the phase settled or threw. */
  datatype Stage = Stage(world: World, outcome: Outcome)

  /** The world and the event log after `generate()`, and whether it settled or threw. */
  datatype GenerateResult = GenerateResult(world: World, events: seq<Event>, outcome: Outcome)

  const ManifestFile := "package.json"
  const GitDir := ".git"
  const CommitMessage := "Add initial files"
  const StagePattern := "*"

  /** `this.options.cwd || process.cwd()`: an empty `cwd` counts as absent. */
  function StartDir(o: GeneratorOptions, w: World): (r: Path)
    ensures Some(r) == o.cwd || r == w.cwd
    ensures o.cwd.Some? && o.cwd.value != "" ==> r == o.cwd.value
    ensures r == "" ==> w.cwd == ""
  {
    if o.cwd.Some? && o.cwd.value != "" then o.cwd.value else w.cwd
  }

  /** Whether `init` creates and enters a project directory: the start directory differs from
      `options.path`, which includes `path` being absent. */
  predicate Relocates(o: GeneratorOptions, w: World)
    ensures o.path.None? ==> Relocates(o, w)
  {
    o.path != Some(StartDir(o, w))
  }

  /** The value of `init`'s local `cwd` once the directory has been resolved. */
  function ProjectDir(o: GeneratorOptions, w: World): (r: Path)
    ensures !Relocates(o, w) ==> r == StartDir(o, w)
    ensures Relocates(o, w) && StartDir(o, w) != "" && o.name != "" ==>
      |r| > |StartDir(o, w)| && r[..|StartDir(o, w)|] == StartDir(o, w)
    ensures IsAbsolute(StartDir(o, w)) ==> IsAbsolute(r)
  {
    if Relocates(o, w) then Join(StartDir(o, w), o.name) else StartDir(o, w)
  }

  /** `pkgm().initSync()` in the working directory: the package manager may fail; otherwise it
      leaves a manifest in place, writing one only when none exists. */
  function InitManifest(w: World, ext: Collaborators): (r: Stage)
    ensures r.world.calls == w.calls + [ManifestInit(w.cwd)] && r.world.cwd == w.cwd && w.paths <= r.world.paths
    ensures r.outcome.Pass? ==> Exists(r.world, ManifestFile)
    ensures r.outcome.Fail? ==> r.outcome == ext.manifestInit
  {
    var w1 := Record(w, ManifestInit(w.cwd));
    if ext.manifestInit.Fail? then Stage(w1, ext.manifestInit)
    else if Exists(w1, ManifestFile) then Stage(w1, Pass)
    else Stage(WriteFile(w1, ManifestFile, JsonDoc(ext.initialManifest)), Pass)
  }

  /** `git(dir).init()` when git is requested and `dir/.git` is absent. */
  function InitGit(o: GeneratorOptions, dir: Path, w: World, ext: Collaborators): (r: Stage)
    ensures r.world.cwd == w.cwd && r.world.files == w.files && w.paths <= r.world.paths
    ensures r.world.calls == w.calls || r.world.calls == w.calls + [GitInit(Resolve(w.cwd, dir))]
    ensures r.world.calls != w.calls <==> Truthy(o.git) && !Exists(w, Join(dir, GitDir))
  {
    if Truthy(o.git) && !Exists(w, Join(dir, GitDir)) then
      var w1 := Record(w, GitInit(Resolve(w.cwd, dir)));
      if ext.gitInit.Fail? then Stage(w1, ext.gitInit)
      else Stage(w1.(paths := w1.paths + {Resolve(w.cwd, Join(dir, GitDir))}), Pass)
    else Stage(w, Pass)
  }

  /** `mkdir -p` and `process.chdir` into the project directory, when `init` relocates. */
  function Enter(o: GeneratorOptions, w: World): (r: Result<World>)
    ensures r.Ok? ==> r.value.calls == w.calls && r.value.files == w.files && w.paths <= r.value.paths
    ensures r.Ok? ==> r.value.cwd == if Relocates(o, w) then Resolve(w.cwd, ProjectDir(o, w)) else w.cwd
  {
    if Relocates(o, w) then ChangeDir(MakeDir(w, ProjectDir(o, w)), ProjectDir(o, w)) else Ok(w)
  }

  /** The private `init()`: resolve and enter the project directory, initialise the manifest, then
      initialise git. */
  function InitSpec(o: GeneratorOptions, w: World, ext: Collaborators): (r: Stage)
    ensures w.paths <= r.world.paths
    ensures |w.calls| <= |r.world.calls| <= |w.calls| + 2 && r.world.calls[..|w.calls|] == w.calls
    ensures r.outcome.Pass? ==> Exists(r.world, ManifestFile)
  {
    var entered := Enter(o, w);
    if entered.Err? then Stage(MakeDir(w, ProjectDir(o, w)), Fail(entered.error))
    else
      var m := InitManifest(entered.value, ext);
      if m.outcome.Fail? then m else InitGit(o, ProjectDir(o, w), m.world, ext)
  }

  /** `#commit`: stage everything and commit when git is requested and `.git` exists under
      `options.path || ''`. */
  function CommitSpec(o: GeneratorOptions, w: World, ext: Collaborators): (r: Stage)
    ensures r.world.paths == w.paths && r.world.files == w.files && r.world.cwd == w.cwd
    ensures |w.calls| <= |r.world.calls| <= |w.calls| + 2 && r.world.calls[..|w.calls|] == w.calls
  {
    var p := o.path.GetOr("");
    if Truthy(o.git) && Exists(w, Join(p, GitDir)) then
      var repo := Resolve(w.cwd, p);
      var w1 := Record(w, GitAdd(repo, StagePattern));
      if ext.gitAdd.Fail? then Stage(w1, ext.gitAdd)
      else Stage(Record(w1, GitCommit(repo, CommitMessage)), ext.gitCommit)
    else Stage(w, Pass)
  }

  /** The notices emitted after a successful commit. */
  function Closing(o: GeneratorOptions): seq<Event> {
    [Notice(Succeeded)] + (if o.cwd != o.path then [Notice(CdInto(o.name))] else []) + [End]
  }

  /** The events `generate()` emits before awaiting anything. */
  function Opening(o: GeneratorOptions, w: World, events: seq<Event>): seq<Event> {
    events + [Start, Notice(Creating(o.framework, Resolve(w.cwd, o.name)))]
  }

  /** The three phases `generate()` awaits in turn: `init`, `executor.run` and `#commit`. A
      rejection ends the sequence with that rejection. */
  function PhasesSpec(o: GeneratorOptions, steps: seq<Step>, w: World, ext: Collaborators): (r: Stage)
    ensures w.paths <= r.world.paths
    ensures |w.calls| <= |r.world.calls| && r.world.calls[..|w.calls|] == w.calls
  {
    var init := InitSpec(o, w, ext);
    if init.outcome.Fail? then init
    else
      var ran := Record(init.world, ExecutorRun(steps));
      if ext.run.Fail? then Stage(ran, ext.run)
      else CommitSpec(o, ran, ext)
  }

  /** `generate()`: the opening events, then the awaited phases, then the closing events. A
      rejection in any phase ends the call with no further event. */
  function GenerateSpec(o: GeneratorOptions, steps: seq<Step>, w: World, events: seq<Event>, ext: Collaborators): (r: GenerateResult)
    ensures |r.events| >= |events| + 2 && r.events[..|events| + 2] == Opening(o, w, events)
    ensures r.outcome.Pass? <==> r.events[|r.events| - 1] == End
  {
    var phases := PhasesSpec(o, steps, w, ext);
    var opening := Opening(o, w, events);
    GenerateResult(phases.world, if phases.outcome.Pass? then opening + Closing(o) else opening, phases.outcome)
  }

  /** The executor, bound to the generator's own step array (not a copy) and to a copy of its options. */
  class Executor {
    const steps: StepList
    const options: GeneratorOptions

    constructor (steps: StepList, options: GeneratorOptions)
      ensures this.steps == steps && this.options == options
    {
      this.steps := steps;
      this.options := options;
    }

    /** `run()`: runs the steps as they stand when it is called; its effect on the files is not
        modelled, its outcome is supplied. */
    method Run(host: Host, outcome: Outcome) returns (r: Outcome)
      modifies host
      ensures host.State() == Record(old(host.State()), ExecutorRun(steps.items))
      ensures r == outcome
    {
      host.Issue(ExecutorRun(steps.items));
      r := outcome;
    }
  }

  class Generator {
    const options: GeneratorOptions
    const steps: StepList
    const executor: Executor
    var events: seq<Event>

    /** The executor reads the very array the builder methods append to. */
    predicate Valid() {
      executor.steps == steps
    }

    constructor (options: GeneratorOptions)
      ensures Valid() && fresh(steps) && fresh(executor)
      ensures this.options == options && executor.options == options
      ensures steps.items == [] && events == []
    {
      this.options := options;
      var list := new StepList();
      steps := list;
      executor := new Executor(list, options);
      events := [];
    }

    /** `addDependencyStep`: appends and returns the generator for chaining. */
    method AddDependencyStep(name: string, packages: seq<PackageSpec>) returns (g: Generator)
      modifies steps
      ensures g == this
      ensures steps.items == old(steps.items) + [Dependency(name, packages)]
    {
      steps.Append(Dependency(name, packages));
      g := this;
    }

    /** `addCustomStep`: appends and returns the generator for chaining. */
    method AddCustomStep(name: string, condition: Option<bool>, effect: Effect) returns (g: Generator)
      modifies steps
      ensures g == this
      ensures steps.items == old(steps.items) + [Custom(name, condition, effect)]
    {
      steps.Append(Custom(name, condition, effect));
      g := this;
    }

    method Emit(e: Event)
      modifies this
      ensures events == old(events) + [e]
    {
      events := events + [e];
    }

    method Init(host: Host, ext: Collaborators) returns (r: Outcome)
      modifies host
      ensures Stage(host.State(), r) == InitSpec(options, old(host.State()), ext)
    {
      ghost var w := host.State();
      var cwd := if options.cwd.Some? && options.cwd.value != "" then options.cwd.value else host.cwd;
      if options.path != Some(cwd) {
        cwd := Join(cwd, options.name);
        host.MakeDirectory(cwd);
        r := host.ChangeDirectory(cwd);
        if r.Fail? {
          return;
        }
      }
      assert cwd == ProjectDir(options, w);
      ghost var entered := host.State();
      host.Issue(ManifestInit(host.cwd));
      if ext.manifestInit.Fail? {
        r := ext.manifestInit;
        return;
      }
      var hasManifest := host.PathExists(ManifestFile);
      if !hasManifest {
        host.Write(ManifestFile, JsonDoc(ext.initialManifest));
      }
      assert InitManifest(entered, ext) == Stage(host.State(), Pass);
      var hasGit := host.PathExists(Join(cwd, GitDir));
      if Truthy(options.git) && !hasGit {
        var marker := Resolve(host.cwd, Join(cwd, GitDir));
        host.Issue(GitInit(Resolve(host.cwd, cwd)));
        if ext.gitInit.Fail? {
          r := ext.gitInit;
          return;
        }
        host.AddPath(marker);
      }
      r := Pass;
    }

    method Commit(host: Host, ext: Collaborators) returns (r: Outcome)
      modifies host
      ensures Stage(host.State(), r) == CommitSpec(options, old(host.State()), ext)
    {
      var p := options.path.GetOr("");
      var hasGit := host.PathExists(Join(p, GitDir));
      r := Pass;
      if Truthy(options.git) && hasGit {
        var repo := Resolve(host.cwd, p);
        host.Issue(GitAdd(repo, StagePattern));
        if ext.gitAdd.Fail? {
          r := ext.gitAdd;
          return;
        }
        host.Issue(GitCommit(repo, CommitMessage));
        r := ext.gitCommit;
      }
    }

    /** The awaited part of `generate()`: `init`, then `executor.run`, then `#commit`, stopping at
        the first rejection. */
    method Phases(host: Host, ext: Collaborators) returns (r: Outcome)
      requires Valid()
      modifies host
      ensures Stage(host.State(), r) == PhasesSpec(options, steps.items, old(host.State()), ext)
    {
      r := Init(host, ext);
      if r.Fail? {
        return;
      }
      ghost var w1 := host.State();
      r := executor.Run(host, ext.run);
      if r.Fail? {
        return;
      }
      r := Commit(host, ext);
      assert Stage(host.State(), r) == CommitSpec(options, Record(w1, ExecutorRun(steps.items)), ext);
    }

    /** `generate()`: settles with the generator itself, or rejects with the first error. */
    method Generate(host: Host, ext: Collaborators) returns (r: Result<Generator>)
      requires Valid()
      modifies this, host
      ensures r.Ok? ==> r.value == this
      ensures GenerateSpec(options, steps.items, old(host.State()), old(events), ext)
              == GenerateResult(host.State(), events, if r.Ok? then Pass else Fail(r.error))
    {
      Emit(Start);
      Emit(Notice(Creating(options.framework, Resolve(host.cwd, options.name))));
      ghost var opening := events;
      assert opening == Opening(options, old(host.State()), old(events));
      var phases := Phases(host, ext);
      if phases.Fail? {
        return Err(phases.error);
      }
      Emit(Notice(Succeeded));
      if options.cwd != options.path {
        Emit(Notice(CdInto(options.name)));
      }
      Emit(End);
      assert events == opening + Closing(options);
      r := Ok(this);
    }
  }

  /** The exported `generator(options)` function. */
  method NewGenerator(options: GeneratorOptions) returns (g: Generator)
    ensures fresh(g) && fresh(g.steps) && g.Valid()
    ensures g.options == options && g.steps.items == [] && g.events == []
  {
    g := new Generator(options);
  }
}

=== FILE: generator_properties.dfy ===
/** What `generate()` promises about its events, the order of its phases, the project directory,
    git initialisation and the final commit. */
module GeneratorProperties {
  import opened Common
  import opened Paths
  import opened Steps
  import opened Environment
  import opened Generation
  import Json

  /** The commit phase issues nothing, or `git add *` alone (when staging rejects), or `git add *`
      and then the commit. */
  predicate CommitCalls(cs: seq<Call>, repo: Path) {
    || cs == []
    || cs == [GitAdd(repo, StagePattern)]
    || cs == [GitAdd(repo, StagePattern), GitCommit(repo, CommitMessage)]
  }

  /** `start` then the creation notice come first; on success the closing notices follow and
      `end` comes last; on a rejection nothing follows the opening pair. */
  lemma GenerateEvents(o: GeneratorOptions, steps: seq<Step>, w: World, events: seq<Event>, ext: Collaborators)
    ensures var g := GenerateSpec(o, steps, w, events, ext);
      var opening := events + [Start, Notice(Creating(o.framework, Resolve(w.cwd, o.name)))];
      && (g.outcome.Pass? ==> g.events == opening + Closing(o) && g.events[|g.events| - 1] == End)
      && (g.outcome.Fail? ==> g.events == opening)
      && g.events[..|events| + 2] == opening[..|events| + 2]
  {
  }

  /** The closing notices: `Success!` first, the `cd` hint exactly when `options.cwd` differs from
      `options.path` (the raw options, not the resolved directory), and `end` last. */
  lemma ClosingNotices(o: GeneratorOptions)
    ensures Closing(o)[0] == Notice(Succeeded)
    ensures Closing(o)[|Closing(o)| - 1] == End
    ensures Notice(CdInto(o.name)) in Closing(o) <==> o.cwd != o.path
    ensures |Closing(o)| == if o.cwd != o.path then 3 else 2
  {
  }

  /** A rejection in any phase propagates: `generate()` rejects with the first error, and a failed
      commit is not downgraded. */
  lemma GenerateOutcome(o: GeneratorOptions, steps: seq<Step>, w: World, events: seq<Event>, ext: Collaborators)
    ensures var init := InitSpec(o, w, ext);
      var g := GenerateSpec(o, steps, w, events, ext);
      var commit := CommitSpec(o, Record(init.world, ExecutorRun(steps)), ext);
      && (init.outcome.Fail? ==> g.outcome == init.outcome)
      && (init.outcome.Pass? && ext.run.Fail? ==> g.outcome == ext.run)
      && (init.outcome.Pass? && ext.run.Pass? ==> g.outcome == commit.outcome)
  {
  }

  /** `init`, `executor.run` and `#commit` issue their commands in that order, each phase starting
      only once the previous one settled: the executor runs only after a successful `init`, and
      the commit phase only after a successful run. */
  lemma GeneratePhaseOrder(o: GeneratorOptions, steps: seq<Step>, w: World, events: seq<Event>, ext: Collaborators)
    ensures var init := InitSpec(o, w, ext);
      var g := GenerateSpec(o, steps, w, events, ext);
      && (init.outcome.Fail? ==> g.world == init.world)
      && (init.outcome.Pass? ==>
            && |g.world.calls| > |init.world.calls|
            && g.world.calls[..|init.world.calls| + 1] == init.world.calls + [ExecutorRun(steps)]
            && (ext.run.Fail? ==> |g.world.calls| == |init.world.calls| + 1)
            && CommitCalls(g.world.calls[|init.world.calls| + 1..], Resolve(init.world.cwd, o.path.GetOr(""))))
  {
    var init := InitSpec(o, w, ext);
    if init.outcome.Pass? && ext.run.Pass? {
      var ran := Record(init.world, ExecutorRun(steps));
      var commit := CommitSpec(o, ran, ext);
      assert commit.world.calls[..|ran.calls|] == ran.calls;
      assert commit.world.calls[..|init.world.calls| + 1] == ran.calls;
      assert ran.cwd == init.world.cwd;
      assert commit.world.calls[|init.world.calls| + 1..] == commit.world.calls[|ran.calls|..];
    }
  }

  /** `init` issues the package-manager initialisation first and at most one `git init` after it;
      a rejected `chdir` stops it before any command. */
  lemma InitCalls(o: GeneratorOptions, w: World, ext: Collaborators)
    ensures var init := InitSpec(o, w, ext);
      var suffix := init.world.calls[|w.calls|..];
      && init.world.calls[..|w.calls|] == w.calls
      && (suffix == [] || (suffix[0] == ManifestInit(init.world.cwd) && |suffix| <= 2
                           && (|suffix| == 2 ==> suffix[1].GitInit?)))
      && (init.outcome.Pass? ==> |suffix| >= 1)
      && (Enter(o, w).Err? ==> init.world.calls == w.calls)
  {
    var entered := Enter(o, w);
    if entered.Ok? {
      var m := InitManifest(entered.value, ext);
      assert entered.value.calls == w.calls;
      InitManifestFrame(entered.value, ext);
      if m.outcome.Pass? {
        InitGitFrame(o, ProjectDir(o, w), m.world, ext);
      }
    }
  }

  /** Directory resolution: when the start directory differs from `options.path`, `init` creates
      `join(start, name)` and moves into it before the manifest and git phases, so both hold
      whatever those phases do; a failed `chdir` issues no command and rejects. Otherwise
      nothing is created and the working directory is left alone. */
  lemma InitDirectory(o: GeneratorOptions, w: World, ext: Collaborators)
    ensures var init := InitSpec(o, w, ext);
      var target := Resolve(w.cwd, Join(StartDir(o, w), o.name));
      && (Relocates(o, w) && Enter(o, w).Ok? ==> target in init.world.paths && init.world.cwd == target)
      && (Enter(o, w).Err? ==> init.outcome.Fail? && init.world.calls == w.calls && init.world.cwd == w.cwd)
      && (!Relocates(o, w) ==> Enter(o, w) == Ok(w) && init.world.cwd == w.cwd)
  {
    var dir := ProjectDir(o, w);
    var entered := Enter(o, w);
    if entered.Ok? {
      InitManifestFrame(entered.value, ext);
      var m := InitManifest(entered.value, ext);
      if m.outcome.Pass? {
        InitGitFrame(o, dir, m.world, ext);
      }
    }
  }

  /** `mkdir -p` is idempotent: making an existing directory changes nothing. */
  lemma MakeDirIdempotent(w: World, p: Path)
    ensures MakeDir(MakeDir(w, p), p) == MakeDir(w, p)
    ensures Resolve(w.cwd, p) in w.paths && Resolve(w.cwd, p) !in w.files ==> MakeDir(w, p) == w
  {
  }

  /** Once the directory is entered, `init` always initialises the manifest, and then initialises
      git exactly when git is requested and `.git` is absent in the project directory. */
  lemma InitGitWhenAbsent(o: GeneratorOptions, w: World, ext: Collaborators)
    requires ext.manifestInit.Pass? && Enter(o, w).Ok?
    ensures InitSpec(o, w, ext).world.calls[..|w.calls| + 1] == w.calls + [ManifestInit(Enter(o, w).value.cwd)]
    ensures (exists c :: c in InitSpec(o, w, ext).world.calls[|w.calls| + 1..] && c.GitInit?)
            <==> Truthy(o.git) && !Exists(InitManifest(Enter(o, w).value, ext).world, Join(ProjectDir(o, w), GitDir))
  {
    var entered := Enter(o, w).value;
    var m := InitManifest(entered, ext);
    var init := InitSpec(o, w, ext);
    assert entered.calls == w.calls;
    assert m.world.calls == w.calls + [ManifestInit(entered.cwd)];
    assert init == InitGit(o, ProjectDir(o, w), m.world, ext);
    var tail := init.world.calls[|w.calls| + 1..];
    if Truthy(o.git) && !Exists(m.world, Join(ProjectDir(o, w), GitDir)) {
      assert init.world.calls == m.world.calls + [GitInit(Resolve(m.world.cwd, ProjectDir(o, w)))];
      assert tail == [GitInit(Resolve(m.world.cwd, ProjectDir(o, w)))];
      var c := tail[0];
      assert c in init.world.calls[|w.calls| + 1..] && c.GitInit?;
      assert init.world.calls[..|w.calls| + 1] == m.world.calls;
    } else {
      assert init.world.calls == m.world.calls;
      assert tail == [];
    }
  }

  /** The package-manager initialisation keeps the working directory and every existing path, and
      touches no file but the manifest. */
  lemma InitManifestFrame(w: World, ext: Collaborators)
    ensures var m := InitManifest(w, ext);
      && m.world.cwd == w.cwd && w.paths <= m.world.paths
      && m.world.files.Keys <= w.files.Keys + {Resolve(w.cwd, ManifestFile)}
      && m.world.calls == w.calls + [ManifestInit(w.cwd)]
  {
  }

  /** A successful git phase leaves the `.git` marker of `dir` in place, issues nothing when the
      marker already exists, and touches neither files nor the working directory. */
  lemma InitGitFrame(o: GeneratorOptions, dir: Path, w: World, ext: Collaborators)
    ensures var g := InitGit(o, dir, w, ext);
      && g.world.cwd == w.cwd && w.paths <= g.world.paths && g.world.files == w.files
      && (g.outcome.Pass? && Truthy(o.git) ==> Exists(g.world, Join(dir, GitDir)))
      && (Exists(w, Join(dir, GitDir)) ==> g.world.calls == w.calls)
      && (g.world.calls == w.calls || g.world.calls == w.calls + [GitInit(Resolve(w.cwd, dir))])
  {
  }

  /** A successful `init` entered the project directory, initialised the manifest and ran the git
      phase there. */
  lemma InitPassed(o: GeneratorOptions, w: World, ext: Collaborators)
    requires InitSpec(o, w, ext).outcome.Pass?
    ensures Enter(o, w).Ok? && ext.manifestInit.Pass?
    ensures InitSpec(o, w, ext) == InitGit(o, ProjectDir(o, w), InitManifest(Enter(o, w).value, ext).world, ext)
  {
  }

  /** What a successful first `init` leaves behind: the project directory exists as a directory
      (when it relocated) and holds the `.git` marker (when git was wanted). */
  lemma FirstInitLeaves(o: GeneratorOptions, w: World, ext: Collaborators)
    requires o.cwd.Some? && IsAbsolute(o.cwd.value)
    requires InitSpec(o, w, ext).outcome.Pass?
    ensures var w1 := InitSpec(o, w, ext).world;
      var dir := ProjectDir(o, w);
      && IsAbsolute(dir)
      && (Relocates(o, w) ==> dir in w1.paths && dir !in w1.files)
      && (Truthy(o.git) ==> Join(dir, GitDir) in w1.paths)
  {
    var dir := ProjectDir(o, w);
    JoinKeepsAbsolute(o.cwd.value, o.name);
    JoinKeepsAbsolute(dir, GitDir);
    InitPassed(o, w, ext);
    var entered := Enter(o, w).value;
    var m := InitManifest(entered, ext);
    InitManifestFrame(entered, ext);
    InitGitFrame(o, dir, m.world, ext);
    if Relocates(o, w) {
      assert entered.cwd == dir && dir in entered.paths && dir !in entered.files;
      assert |Resolve(dir, ManifestFile)| > |dir|;
    }
  }

  /** `init` from a state whose absolute project directory already holds `.git` (when git is
      wanted) never runs `git init`, whether or not it gets into the directory. */
  lemma InitSkipsPresentGit(o: GeneratorOptions, w: World, ext: Collaborators)
    requires IsAbsolute(ProjectDir(o, w))
    requires Truthy(o.git) ==> Join(ProjectDir(o, w), GitDir) in w.paths
    ensures var w1 := InitSpec(o, w, ext).world;
      && w1.calls[..|w.calls|] == w.calls
      && forall k :: |w.calls| <= k < |w1.calls| ==> !w1.calls[k].GitInit?
  {
    var dir := ProjectDir(o, w);
    var entered := Enter(o, w);
    if entered.Ok? {
      assert w.paths <= entered.value.paths && entered.value.calls == w.calls;
      var m := InitManifest(entered.value, ext);
      InitManifestFrame(entered.value, ext);
      if m.outcome.Pass? {
        JoinKeepsAbsolute(dir, GitDir);
        assert Truthy(o.git) ==> Exists(m.world, Join(dir, GitDir));
        InitGitFrame(o, dir, m.world, ext);
      }
      assert InitSpec(o, w, ext).world.calls == w.calls + [ManifestInit(entered.value.cwd)];
    }
  }

  /** A second `init` with the same absolute `options.cwd` re-enters the same project directory
      and never initialises git again once the first one succeeded. */
  lemma SecondInitSkipsGit(o: GeneratorOptions, w: World, ext1: Collaborators, ext2: Collaborators)
    requires o.cwd.Some? && IsAbsolute(o.cwd.value)
    requires InitSpec(o, w, ext1).outcome.Pass?
    ensures var w1 := InitSpec(o, w, ext1).world;
      var w2 := InitSpec(o, w1, ext2).world;
      && ProjectDir(o, w1) == ProjectDir(o, w)
      && forall k :: |w1.calls| <= k < |w2.calls| ==> !w2.calls[k].GitInit?
  {
    var w1 := InitSpec(o, w, ext1).world;
    FirstInitLeaves(o, w, ext1);
    assert StartDir(o, w1) == StartDir(o, w) == o.cwd.value;
    assert ProjectDir(o, w1) == ProjectDir(o, w);
    InitSkipsPresentGit(o, w1, ext2);
  }

  /** `init` with no `options.cwd`, from an absolute working directory that is not `options.path`,
      git wanted and the manifest and git initialisations settling, where `join(cwd, name)` is not
      a file and holds no `.git`: it creates and enters `join(cwd, name)`, runs the manifest
      initialisation and `git init` there, and adds no path and no file outside it. */
  lemma InitIntoFreshDirectory(o: GeneratorOptions, w: World, ext: Collaborators)
    requires o.cwd.None? && o.path != Some(w.cwd) && Truthy(o.git)
    requires ext.manifestInit.Pass? && ext.gitInit.Pass?
    requires IsAbsolute(w.cwd)
    requires Join(w.cwd, o.name) !in w.files
    requires Join(Join(w.cwd, o.name), GitDir) !in w.paths
    ensures var sub := Join(w.cwd, o.name);
      var r := InitSpec(o, w, ext);
      && r.outcome.Pass?
      && r.world.cwd == sub
      && r.world.calls == w.calls + [ManifestInit(sub), GitInit(sub)]
      && sub in r.world.paths && Join(sub, GitDir) in r.world.paths
      && r.world.paths <= w.paths + {sub, Join(sub, ManifestFile), Join(sub, GitDir)}
      && r.world.files.Keys <= w.files.Keys + {Join(sub, ManifestFile)}
  {
    var sub := Join(w.cwd, o.name);
    var git := Join(sub, GitDir);
    JoinKeepsAbsolute(w.cwd, o.name);
    JoinKeepsAbsolute(sub, GitDir);
    assert StartDir(o, w) == w.cwd && Relocates(o, w) && ProjectDir(o, w) == sub;
    var e := Enter(o, w).value;
    assert e.cwd == sub && e.paths == w.paths + {sub} && e.files == w.files && e.calls == w.calls;
    var m := InitManifest(e, ext);
    assert m.outcome.Pass?;
    assert m.world.paths <= e.paths + {Join(sub, ManifestFile)};
    assert m.world.files.Keys <= e.files.Keys + {Join(sub, ManifestFile)};
    JoinLonger(sub, GitDir);
    JoinLonger(sub, ManifestFile);
    assert git !in m.world.paths;
    assert Resolve(m.world.cwd, sub) == sub && Resolve(m.world.cwd, git) == git;
  }

  /** `join(a, b)` of two non-empty paths adds `b` and at most one separator to `a`. */
  lemma JoinLonger(a: Path, b: Path)
    requires a != "" && b != ""
    ensures |Join(a, b)| == |a| + |b| || |Join(a, b)| == |a| + |b| + 1
  {
  }

  /** The absolute `options.cwd` of `SecondInitSkipsGit` is one way to keep a second `init` out of
      git: without it, and with no `options.path`, the start directory is the working directory,
      which the first `init` moved into the project directory, so a second `init` nests `name`
      once more and runs `git init` there. */
  lemma SecondInitWithoutCwdNests()
    ensures var o := GeneratorOptions("x", "next", None, None, false, Some(true), map[]);
      var ext := Collaborators(Pass, Json.JNull, Pass, Pass, Pass, Pass);
      var w := World({"/p"}, map[], "/p", []);
      var w1 := InitSpec(o, w, ext).world;
      var w2 := InitSpec(o, w1, ext).world;
      && w1.cwd == "/p/x"
      && w2.cwd == "/p/x/x"
      && w2.calls == w1.calls + [ManifestInit("/p/x/x"), GitInit("/p/x/x")]
  {
    var o := GeneratorOptions("x", "next", None, None, false, Some(true), map[]);
    var ext := Collaborators(Pass, Json.JNull, Pass, Pass, Pass, Pass);
    var w := World({"/p"}, map[], "/p", []);
    FirstInitFromP(o, ext);
    var w1 := InitSpec(o, w, ext).world;
    assert Join("/p/x", "x") == "/p/x/x" && Join("/p/x/x", GitDir) == "/p/x/x/.git";
    InitIntoFreshDirectory(o, w1, ext);
  }

  /** The first `init` of the two examples below: from `/p`, with name `x`, no `cwd`, git wanted
      and every collaborator settling, it enters `/p/x` and adds only `/p/x`, its manifest and its
      `.git`. */
  lemma FirstInitFromP(o: GeneratorOptions, ext: Collaborators)
    requires o.name == "x" && o.cwd.None? && o.path != Some("/p") && Truthy(o.git)
    requires ext.manifestInit.Pass? && ext.gitInit.Pass?
    ensures var w1 := InitSpec(o, World({"/p"}, map[], "/p", []), ext).world;
      && w1.cwd == "/p/x" && IsAbsolute(w1.cwd)
      && w1.calls == [ManifestInit("/p/x"), GitInit("/p/x")]
      && w1.paths <= {"/p", "/p/x", "/p/x/package.json", "/p/x/.git"}
      && "/p/x/.git" in w1.paths
      && w1.files.Keys <= {"/p/x/package.json"}
  {
    var w := World({"/p"}, map[], "/p", []);
    assert Join("/p", "x") == "/p/x" && Join("/p/x", GitDir) == "/p/x/.git";
    assert Join("/p/x", ManifestFile) == "/p/x/package.json";
    InitIntoFreshDirectory(o, w, ext);
  }

  /** `options.path` stops the nesting too: when it names the directory the first `init` created,
      a second `init` starts there, does not relocate, and finds `.git` in place. */
  lemma SecondInitWithPathStays()
    ensures var o := GeneratorOptions("x", "next", None, Some("/p/x"), false, Some(true), map[]);
      var ext := Collaborators(Pass, Json.JNull, Pass, Pass, Pass, Pass);
      var w := World({"/p"}, map[], "/p", []);
      var w1 := InitSpec(o, w, ext).world;
      var w2 := InitSpec(o, w1, ext).world;
      && w1.cwd == "/p/x"
      && w2.cwd == "/p/x"
      && w2.calls == w1.calls + [ManifestInit("/p/x")]
  {
    var o := GeneratorOptions("x", "next", None, Some("/p/x"), false, Some(true), map[]);
    var ext := Collaborators(Pass, Json.JNull, Pass, Pass, Pass, Pass);
    var w := World({"/p"}, map[], "/p", []);
    FirstInitFromP(o, ext);
    var w1 := InitSpec(o, w, ext).world;
    assert !Relocates(o, w1) && Enter(o, w1) == Ok(w1) && ProjectDir(o, w1) == "/p/x";
    var m := InitManifest(w1, ext);
    assert m.world.calls == w1.calls + [ManifestInit("/p/x")];
    assert Exists(m.world, Join("/p/x", GitDir));
    assert InitSpec(o, w1, ext) == InitGit(o, "/p/x", m.world, ext);
  }

  /** A relative `options.cwd` is resolved against the process directory at each use: `init`
      enters `<start>/<cwd>/<name>`, then looks for `.git` under, and runs `git init` in,
      `join(cwd, name)` resolved against that new directory. */
  lemma InitRelativeCwd()
    ensures var o := GeneratorOptions("x", "next", Some("foo"), None, false, Some(true), map[]);
      var ext := Collaborators(Pass, Json.JNull, Pass, Pass, Pass, Pass);
      var w1 := InitSpec(o, World({"/p"}, map[], "/p", []), ext).world;
      && w1.cwd == "/p/foo/x"
      && w1.calls == [ManifestInit("/p/foo/x"), GitInit("/p/foo/x/foo/x")]
  {
    var o := GeneratorOptions("x", "next", Some("foo"), None, false, Some(true), map[]);
    var ext := Collaborators(Pass, Json.JNull, Pass, Pass, Pass, Pass);
    var w := World({"/p"}, map[], "/p", []);
    RelativeCwdEnter(o, w);
    var e := World({"/p", "/p/foo/x"}, map[], "/p/foo/x", []);
    RelativeCwdManifest(e, ext);
    var m := InitManifest(e, ext);
    RelativeCwdGit(o, m.world, ext);
  }

  /** The manifest step of `InitRelativeCwd`, in `/p/foo/x`. */
  lemma RelativeCwdManifest(e: World, ext: Collaborators)
    requires ext.manifestInit.Pass?
    requires e == World({"/p", "/p/foo/x"}, map[], "/p/foo/x", [])
    ensures var m := InitManifest(e, ext);
      && m.outcome.Pass? && m.world.cwd == "/p/foo/x" && m.world.calls == [ManifestInit("/p/foo/x")]
      && m.world.paths <= {"/p", "/p/foo/x", "/p/foo/x/package.json"}
  {
    assert Resolve("/p/foo/x", ManifestFile) == "/p/foo/x/package.json";
  }

  /** The enter step of `InitRelativeCwd`: `foo/x` is made and entered from `/p`. */
  lemma RelativeCwdEnter(o: GeneratorOptions, w: World)
    requires o.name == "x" && o.cwd == Some("foo") && o.path.None?
    requires w == World({"/p"}, map[], "/p", [])
    ensures ProjectDir(o, w) == "foo/x"
    ensures Enter(o, w) == Ok(World({"/p", "/p/foo/x"}, map[], "/p/foo/x", []))
  {
    assert StartDir(o, w) == "foo" && Relocates(o, w);
    assert Join("foo", "x") == "foo/x";
    assert Resolve("/p", "foo/x") == "/p/foo/x";
    var made := World({"/p", "/p/foo/x"}, map[], "/p", []);
    assert MakeDir(w, "foo/x") == made;
    assert ChangeDir(made, "foo/x") == Ok(made.(cwd := "/p/foo/x"));
  }

  /** The git step of `InitRelativeCwd`: in `/p/foo/x`, `foo/x/.git` is looked up and `git init`
      runs on `foo/x`, both resolved against `/p/foo/x`. */
  lemma RelativeCwdGit(o: GeneratorOptions, m: World, ext: Collaborators)
    requires Truthy(o.git)
    requires m.cwd == "/p/foo/x" && m.paths <= {"/p", "/p/foo/x", "/p/foo/x/package.json"}
    ensures InitGit(o, "foo/x", m, ext).world.calls == m.calls + [GitInit("/p/foo/x/foo/x")]
  {
    assert Join("foo/x", GitDir) == "foo/x/.git";
    assert Resolve("/p/foo/x", "foo/x/.git") == "/p/foo/x/foo/x/.git";
    assert Resolve("/p/foo/x", "foo/x") == "/p/foo/x/foo/x";
  }

  /** The commit stages `*` and commits with the fixed message exactly when git is requested and
      `.git` exists under `options.path || ''`; nothing is issued otherwise. */
  lemma CommitIff(o: GeneratorOptions, w: World, ext: Collaborators)
    ensures var c := CommitSpec(o, w, ext);
      var repo := Resolve(w.cwd, o.path.GetOr(""));
      var wanted := Truthy(o.git) && Exists(w, Join(o.path.GetOr(""), GitDir));
      && c.world.paths == w.paths && c.world.files == w.files && c.world.cwd == w.cwd
      && (wanted && ext.gitAdd.Pass? ==>
            c.world.calls == w.calls + [GitAdd(repo, StagePattern), GitCommit(repo, CommitMessage)]
            && c.outcome == ext.gitCommit)
      && (wanted && ext.gitAdd.Fail? ==> c.world.calls == w.calls + [GitAdd(repo, StagePattern)] && c.outcome == ext.gitAdd)
      && (!wanted ==> c.world == w && c.outcome.Pass?)
  {
  }

  /** `init` never assigns `options.path`: with no `path`, the commit runs in the working directory
      `init` left behind, so it lands in the newly created project directory. */
  lemma CommitWithoutPath(o: GeneratorOptions, steps: seq<Step>, w: World, events: seq<Event>, ext: Collaborators)
    requires o.path.None? && Truthy(o.git)
    requires InitSpec(o, w, ext).outcome.Pass? && ext.run.Pass? && ext.gitAdd.Pass?
    requires Exists(InitSpec(o, w, ext).world, GitDir)
    ensures var init := InitSpec(o, w, ext);
      var g := GenerateSpec(o, steps, w, events, ext);
      && init.world.cwd == Resolve(w.cwd, Join(StartDir(o, w), o.name))
      && g.world.calls == init.world.calls + [ExecutorRun(steps), GitAdd(init.world.cwd, StagePattern), GitCommit(init.world.cwd, CommitMessage)]
  {
    InitDirectory(o, w, ext);
    InitPassed(o, w, ext);
    var init := InitSpec(o, w, ext);
    var ran := Record(init.world, ExecutorRun(steps));
    assert GenerateSpec(o, steps, w, events, ext).world == CommitSpec(o, ran, ext).world;
    assert Resolve(ran.cwd, "") == init.world.cwd;
    CommitIff(o, ran, ext);
  }
}

=== FILE: json.dfy ===
/** JSON values with objects as ordered member lists, and the two JavaScript object-literal
    operations the model needs: spreading a value (`{...v}`) and defining a property after it. */
module Json {
  import opened Common

  datatype Json =
    | JNull
    | JBool(b: bool)
    | JNumber(n: int)
    | JString(s: string)
    | JArray(items: seq<Json>)
    | JObject(members: seq<Member>)

  /** One own property of an object, in insertion order. */
  datatype Member = Member(key: string, value: Json)

  function Keys(ms: seq<Member>): (ks: seq<string>)
    ensures |ks| == |ms|
    ensures forall i :: 0 <= i < |ms| ==> ks[i] == ms[i].key
  {
    if ms == [] then [] else [ms[0].key] + Keys(ms[1..])
  }

  /** A JavaScript object never holds two properties with the same key. */
  predicate DistinctKeys(ms: seq<Member>) {
    forall i, j :: 0 <= i < j < |ms| ==> ms[i].key != ms[j].key
  }

  /** Property access `o[k]`, `None` standing for `undefined`. */
  function Lookup(ms: seq<Member>, k: string): (r: Option<Json>)
    ensures r.None? <==> k !in Keys(ms)
  {
    if ms == [] then None
    else if ms[0].key == k then Some(ms[0].value)
    else Lookup(ms[1..], k)
  }

  /** The property definition `k: v` written after the members `ms` in an object literal:
      an existing key keeps its position and takes the new value, a new key goes last. */
  function Assign(ms: seq<Member>, k: string, v: Json): (r: seq<Member>)
    ensures |r| == if k in Keys(ms) then |ms| else |ms| + 1
    ensures forall i :: 0 <= i < |ms| && ms[i].key != k ==> r[i] == ms[i]
  {
    if ms == [] then [Member(k, v)]
    else if ms[0].key == k then [Member(k, v)] + ms[1..]
    else [ms[0]] + Assign(ms[1..], k, v)
  }

  /** The decimal spelling of an array index, as used for property keys. */
  function IndexKey(n: nat): string
  {
    if n < 10 then [Digit(n)] else IndexKey(n / 10) + [Digit(n % 10)]
  }

  function Digit(d: nat): char
    requires d < 10
  {
    "0123456789"[d]
  }

  function Indexed(items: seq<Json>, from: nat): seq<Member>
  {
    if items == [] then [] else [Member(IndexKey(from), items[0])] + Indexed(items[1..], from + 1)
  }

  /** The own enumerable properties that `{...v}` copies: the members of an object, the indexed
      elements of an array, the indexed characters of a string, and nothing for `null`, booleans
      and numbers. */
  function SpreadMembers(v: Json): seq<Member>
  {
    match v
    case JObject(ms) => ms
    case JArray(items) => Indexed(items, 0)
    case JString(s) => Indexed(seq(|s|, i requires 0 <= i < |s| => JString([s[i]])), 0)
    case _ => []
  }

  /** The object literal `{...base, k: v}`: an object in which `k` reads `v` and every other
      property reads what it read in the spread members of `base`. */
  function SpreadWith(base: Json, k: string, v: Json): (r: Json)
    ensures r.JObject?
    ensures forall k' :: Lookup(r.members, k') == if k' == k then Some(v) else Lookup(SpreadMembers(base), k')
  {
    LookupAssignAll(SpreadMembers(base), k, v);
    JObject(Assign(SpreadMembers(base), k, v))
  }

  /** Reading a property finds the first member with that key. */
  lemma {:induction false} LookupAt(ms: seq<Member>, i: nat)
    requires i < |ms|
    requires forall j :: 0 <= j < i ==> ms[j].key != ms[i].key
    ensures Lookup(ms, ms[i].key) == Some(ms[i].value)
  {
    if i > 0 {
      LookupAt(ms[1..], i - 1);
    }
  }

  /** Defining `k` after `ms` gives `k` the value `v` and leaves every other property's value alone. */
  lemma {:induction false} LookupAssign(ms: seq<Member>, k: string, v: Json, k': string)
    ensures Lookup(Assign(ms, k, v), k') == if k' == k then Some(v) else Lookup(ms, k')
  {
    if ms != [] && ms[0].key != k {
      LookupAssign(ms[1..], k, v, k');
    }
  }

  /** `LookupAssign` for every key at once. */
  lemma LookupAssignAll(ms: seq<Member>, k: string, v: Json)
    ensures forall k' :: Lookup(Assign(ms, k, v), k') == if k' == k then Some(v) else Lookup(ms, k')
  {
    forall k' {
      LookupAssign(ms, k, v, k');
    }
  }

  /** Defining `k` after `ms` keeps every key in its position and appends `k` only when it was absent. */
  lemma {:induction false} KeysAssign(ms: seq<Member>, k: string, v: Json)
    ensures Keys(Assign(ms, k, v)) == if k in Keys(ms) then Keys(ms) else Keys(ms) + [k]
  {
    if ms == [] {
    } else if ms[0].key == k {
      assert Keys(Assign(ms, k, v)) == [k] + Keys(ms[1..]);
    } else {
      KeysAssign(ms[1..], k, v);
      assert Keys(ms) == [ms[0].key] + Keys(ms[1..]);
      assert k in Keys(ms) <==> k in Keys(ms[1..]);
      assert Keys(Assign(ms, k, v)) == [ms[0].key] + Keys(Assign(ms[1..], k, v));
    }
  }

  /** The object `{...o, k: v}` for an object `o`: `k` holds `v`, every other property is kept with
      its value and position, `k` is appended only when it was absent, and keys stay distinct. */
  lemma AssignSpec(ms: seq<Member>, k: string, v: Json)
    requires DistinctKeys(ms)
    ensures Lookup(Assign(ms, k, v), k) == Some(v)
    ensures forall k' :: k' != k ==> Lookup(Assign(ms, k, v), k') == Lookup(ms, k')
    ensures Keys(Assign(ms, k, v)) == if k in Keys(ms) then Keys(ms) else Keys(ms) + [k]
    ensures DistinctKeys(Assign(ms, k, v))
  {
    LookupAssign(ms, k, v, k);
    forall k' | k' != k ensures Lookup(Assign(ms, k, v), k') == Lookup(ms, k') {
      LookupAssign(ms, k, v, k');
    }
    KeysAssign(ms, k, v);
    var r := Assign(ms, k, v);
    var ks, rs := Keys(ms), Keys(r);
    forall i, j | 0 <= i < j < |r| ensures r[i].key != r[j].key {
      assert r[i].key == rs[i] && r[j].key == rs[j];
      if j < |ks| {
        assert rs[i] == ks[i] == ms[i].key && rs[j] == ks[j] == ms[j].key;
      } else {
        assert k !in ks && rs[j] == k && rs[i] == ks[i];
      }
    }
  }
}

=== FILE: next.dfy ===
/** The Next.js framework factory: the generator options it passes on, the packages it installs and
    the custom steps it declares, with the actions those steps perform. */
module NextFramework {
  import opened Common
  import opened Paths
  import opened Json
  import opened Text
  import opened Steps
  import opened Environment
  import opened Generation

  /** The factory's argument. `framework` and `path` stand for the pass-through fields the source
      names elsewhere; `extra` holds every other pass-through field. */
  datatype NextOptions = NextOptions(
    name: string,
    version: Option<string>,
    typescript: Option<bool>,
    dryRun: Option<bool>,
    cwd: Option<Path>,
    git: Option<bool>,
    framework: string,
    path: Option<Path>,
    extra: map<string, Json>)

  const PageTemplates: seq<string> := ["_app.txt", "_document.txt", "index.txt"]
  const StyleSheets: seq<string> := ["globals.css", "home.module.css"]
  const ProjectDirs: seq<Path> := ["assets", "components", "pages", "public", "styles"]
  const GitignoreFile := "Node.gitignore"

  /** The `scripts` object the scripts step writes. */
  const Scripts: Json := JObject([
    Member("dev", JString("next dev")),
    Member("build", JString("next build")),
    Member("start", JString("next start"))])

  /** `{...rest, name, framework: 'next', cwd, dryRun, git}`, with `dryRun` defaulting to false;
      `version` and `typescript` are not passed on. */
  function FactoryOptions(o: NextOptions): (g: GeneratorOptions)
    ensures g.framework == "next"
    ensures g.dryRun == (o.dryRun == Some(true))
    ensures g.name == o.name && g.cwd == o.cwd && g.git == o.git
    ensures g.path == o.path && g.extra == o.extra
  {
    GeneratorOptions(o.name, "next", o.cwd, o.path, o.dryRun.GetOr(false), o.git, o.extra)
  }

  /** `version?.includes('9') ? '16.x' : version || 'latest'`. */
  function ReactVersion(version: Option<string>): (r: string)
    ensures r != ""
    ensures r == "16.x" || r == "latest" || (version == Some(r) && '9' !in r)
  {
    if version.Some? && '9' in version.value then "16.x"
    else if version.Some? && version.value != "" then version.value
    else "latest"
  }

  function DevPackage(name: string): PackageSpec {
    PackageSpec(name, None, Some(true))
  }

  /** The packages of the dependency step. */
  function Packages(o: NextOptions): (r: seq<PackageSpec>)
    ensures |r| == if Truthy(o.typescript) then 6 else 3
    ensures r[0] == PackageSpec("next", o.version, None)
    ensures r[1].name == "react" && r[2].name == "react-dom"
    ensures r[1].dev.None? && r[2].dev.None? && r[1].version == r[2].version
    ensures o.version.Some? && '9' in o.version.value ==> r[1].version == Some("16.x")
    ensures o.version.Some? && '9' !in o.version.value && o.version.value != "" ==> r[1].version == o.version
    ensures o.version.None? || o.version == Some("") ==> r[1].version == Some("latest")
    ensures Truthy(o.typescript) ==> r[3..] == [DevPackage("typescript"), DevPackage("@types/node"), DevPackage("@types/react")]
  {
    var react := ReactVersion(o.version);
    [PackageSpec("next", o.version, None), PackageSpec("react", Some(react), None), PackageSpec("react-dom", Some(react), None)]
    + (if Truthy(o.typescript) then [DevPackage("typescript"), DevPackage("@types/node"), DevPackage("@types/react")] else [])
  }

  function TemplatesPath(moduleDir: Path): Path {
    Join(moduleDir, "templates")
  }

  /** The steps the factory declares, in order. `moduleDir` is the directory of the factory's own
      module, under which the templates lie. */
  function FactorySteps(o: NextOptions, moduleDir: Path): (r: seq<Step>)
    ensures |r| == 8
    ensures r[0] == Dependency("Add initial dependencies", Packages(o))
    ensures forall k :: 1 <= k < |r| ==> r[k].Custom?
    ensures forall k :: 1 <= k < |r| && k != 3 ==> r[k].condition.None?
    ensures r[3].condition == Some(o.typescript != Some(false)) && r[3].effect == Touch("tsconfig.json")
    ensures r[5].effect == WritePages(TemplatesPath(moduleDir), Truthy(o.typescript), o.name)
  {
    var templates := TemplatesPath(moduleDir);
    [ Dependency("Add initial dependencies", Packages(o)),
      Custom("Add scripts to package.json", None, SetScripts),
      Custom("Add next.config.js", None, CopyTemplate(Join(templates, "next.config.txt"), "next.config.js")),
      Custom("Initialize tsconfig.json", Some(o.typescript != Some(false)), Touch("tsconfig.json")),
      Custom("Create the directories", None, MakeDirectories(ProjectDirs)),
      Custom("Create initial pages", None, WritePages(templates, Truthy(o.typescript), o.name)),
      Custom("Create the initial styles", None, WriteStyles(templates)),
      Custom("Initialize .gitignore", None, FetchGitignore(GitignoreFile)) ]
  }

  /** The factory: a new generator with the step list built by chained builder calls. */
  method Factory(o: NextOptions, moduleDir: Path) returns (g: Generator)
    ensures fresh(g) && fresh(g.steps) && g.Valid()
    ensures g.options == FactoryOptions(o) && g.events == []
    ensures g.steps.items == FactorySteps(o, moduleDir)
    ensures g.executor.steps.items == FactorySteps(o, moduleDir)
  {
    var templates := TemplatesPath(moduleDir);
    g := NewGenerator(FactoryOptions(o));
    g := g.AddDependencyStep("Add initial dependencies", Packages(o));
    g := g.AddCustomStep("Add scripts to package.json", None, SetScripts);
    g := g.AddCustomStep("Add next.config.js", None, CopyTemplate(Join(templates, "next.config.txt"), "next.config.js"));
    g := g.AddCustomStep("Initialize tsconfig.json", Some(o.typescript != Some(false)), Touch("tsconfig.json"));
    g := g.AddCustomStep("Create the directories", None, MakeDirectories(ProjectDirs));
    g := g.AddCustomStep("Create initial pages", None, WritePages(templates, Truthy(o.typescript), o.name));
    g := g.AddCustomStep("Create the initial styles", None, WriteStyles(templates));
    g := g.AddCustomStep("Initialize .gitignore", None, FetchGitignore(GitignoreFile));
  }

  // ---------------------------------------------------------------------------------------------
  // The step actions

  /** One template read and one file written. `render` holds the project name when the template
      is rendered with it. */
  datatype Copy = Copy(source: Path, target: Path, render: Option<string>)

  function PageExtension(typescript: bool): string {
    if typescript then "tsx" else "js"
  }

  /** `file.replace('txt', typescript ? 'tsx' : 'js')`: a template whose only `txt` is its suffix
      gets the page extension in its place, and a name without `txt` is kept. */
  function PageName(file: string, typescript: bool): (r: string)
    ensures |file| >= 3 && OccursAt(file, "txt", |file| - 3) && (forall j :: 0 <= j < |file| - 3 ==> !OccursAt(file, "txt", j)) ==>
      r == file[..|file| - 3] + PageExtension(typescript)
    ensures (forall j :: 0 <= j <= |file| ==> !OccursAt(file, "txt", j)) ==> r == file
  {
    ReplaceFirstAnywhere(file, "txt", PageExtension(typescript));
    ReplaceAbsentWhen(file, "txt", PageExtension(typescript));
    ReplaceFirst(file, "txt", PageExtension(typescript))
  }

  function PageCopies(templates: Path, typescript: bool, name: string): seq<Copy> {
    seq(|PageTemplates|, i requires 0 <= i < |PageTemplates| =>
      Copy(Join(templates, "pages/" + PageTemplates[i]), "pages/" + PageName(PageTemplates[i], typescript), Some(name)))
  }

  function StyleCopies(templates: Path): seq<Copy> {
    seq(|StyleSheets|, i requires 0 <= i < |StyleSheets| =>
      Copy(Join(templates, "styles/" + StyleSheets[i]), "styles/" + StyleSheets[i], None))
  }

  function Produced(c: Copy, read: Content): Content {
    if c.render.Some? then Rendered(read, c.render.value) else read
  }

  /** The copies in order; the first template that cannot be read throws, leaving the earlier
      copies written. */
  function CopyAll(w: World, copies: seq<Copy>): (r: Stage)
    ensures r.world.cwd == w.cwd && r.world.calls == w.calls
    ensures w.paths <= r.world.paths && w.files.Keys <= r.world.files.Keys
    ensures |copies| > 0 && Resolve(w.cwd, copies[0].source) !in w.files ==> r.world == w && r.outcome.Fail?
    decreases copies
  {
    if copies == [] then Stage(w, Pass)
    else
      var read := ReadFile(w, copies[0].source);
      if read.Err? then Stage(w, Fail(read.error))
      else CopyAll(WriteFile(w, copies[0].target, Produced(copies[0], read.value)), copies[1..])
  }

  /** The scripts step: read `package.json` as JSON and write back `{...pkg, scripts}`. */
  function SetScriptsSpec(w: World): (r: Stage)
    ensures r.world.cwd == w.cwd && r.world.calls == w.calls
    ensures r.outcome.Pass? <==> ReadFile(w, ManifestFile).Ok? && ReadFile(w, ManifestFile).value.JsonDoc?
    ensures r.outcome.Fail? ==> r.world == w
    ensures r.outcome.Pass? ==>
      && ReadFile(r.world, ManifestFile).Ok? && ReadFile(r.world, ManifestFile).value.JsonDoc?
      && ReadFile(r.world, ManifestFile).value.doc.JObject?
      && Lookup(ReadFile(r.world, ManifestFile).value.doc.members, "scripts") == Some(Scripts)
  {
    var read := ReadFile(w, ManifestFile);
    if read.Err? then Stage(w, Fail(read.error))
    else if !read.value.JsonDoc? then Stage(w, Fail(Unparsable(Resolve(w.cwd, ManifestFile))))
    else Stage(WriteFile(w, ManifestFile, JsonDoc(SpreadWith(read.value.doc, "scripts", Scripts))), Pass)
  }

  /** `touch(p)`: creates an empty file when nothing exists at `p`; otherwise only times change. */
  function TouchSpec(w: World, p: Path): (r: World)
    ensures Exists(r, p)
    ensures r.cwd == w.cwd && r.calls == w.calls && w.paths <= r.paths
    ensures !Exists(w, p) ==> ReadFile(r, p) == Ok(Plain(""))
    ensures WellFormed(w) ==> WellFormed(r) && forall q :: q in w.files ==> q in r.files && r.files[q] == w.files[q]
  {
    if Exists(w, p) then w else WriteFile(w, p, Plain(""))
  }

  /** The download of a `.gitignore` (its outcome supplied) and its writing. */
  function FetchSpec(w: World, file: string, download: Result<string>): (r: Stage)
    ensures r.world.calls == w.calls + [Download(file)] && r.world.cwd == w.cwd
    ensures r.outcome.Pass? <==> download.Ok?
    ensures download.Ok? ==> ReadFile(r.world, ".gitignore") == Ok(Plain(download.value))
    ensures download.Err? ==> r.world.paths == w.paths && r.world.files == w.files && r.outcome == Fail(download.error)
  {
    var w1 := Record(w, Download(file));
    if download.Err? then Stage(w1, Fail(download.error))
    else Stage(WriteFile(w1, ".gitignore", Plain(download.value)), Pass)
  }

  /** What running a custom step's action does to the world. */
  function ApplyEffect(w: World, e: Effect, download: Result<string>): (r: Stage)
    ensures r.world.cwd == w.cwd && w.paths <= r.world.paths
    ensures !e.FetchGitignore? ==> r.world.calls == w.calls
    ensures e.FetchGitignore? ==> r.world.calls == w.calls + [Download(e.file)]
    ensures (e.Touch? || e.MakeDirectories?) ==> r.outcome.Pass?
    ensures (e.SetScripts? || e.CopyTemplate?) && r.outcome.Fail? ==> r.world == w
  {
    match e
    case SetScripts => SetScriptsSpec(w)
    case CopyTemplate(source, target) =>
      var copy := Copy(source, target, None);
      assert [copy][1..] == [];
      assert ReadFile(w, source).Ok? ==> CopyAll(w, [copy]).outcome.Pass?;
      CopyAll(w, [copy])
    case Touch(target) => Stage(TouchSpec(w, target), Pass)
    case MakeDirectories(dirs) => Stage(MakeDirs(w, dirs), Pass)
    case WritePages(templates, typescript, name) => CopyAll(w, PageCopies(templates, typescript, name))
    case WriteStyles(templates) => CopyAll(w, StyleCopies(templates))
    case FetchGitignore(file) => FetchSpec(w, file, download)
  }

  /** The pages action: for each page template, compute the output name, read, render, write. */
  method WritePagesAction(host: Host, templates: Path, typescript: bool, name: string) returns (r: Outcome)
    modifies host
    ensures Stage(host.State(), r) == CopyAll(old(host.State()), PageCopies(templates, typescript, name))
  {
    ghost var copies := PageCopies(templates, typescript, name);
    var pages := PageTemplates;
    var i := 0;
    while i < |pages|
      invariant 0 <= i <= |pages|
      invariant CopyAll(old(host.State()), copies) == CopyAll(host.State(), copies[i..])
    {
      var file := pages[i];
      var script := ReplaceFirst(file, "txt", if typescript then "tsx" else "js");
      assert script == PageName(file, typescript);
      var page := host.Read(Join(templates, "pages/" + file));
      assert copies[i..][0] == copies[i] && copies[i..][1..] == copies[i + 1..];
      if page.Err? {
        return Fail(page.error);
      }
      host.Write("pages/" + script, Rendered(page.value, name));
      i := i + 1;
    }
    r := Pass;
  }

  /** The styles action: copy each style sheet template. */
  method WriteStylesAction(host: Host, templates: Path) returns (r: Outcome)
    modifies host
    ensures Stage(host.State(), r) == CopyAll(old(host.State()), StyleCopies(templates))
  {
    ghost var copies := StyleCopies(templates);
    var styles := StyleSheets;
    var i := 0;
    while i < |styles|
      invariant 0 <= i <= |styles|
      invariant CopyAll(old(host.State()), copies) == CopyAll(host.State(), copies[i..])
    {
      var file := styles[i];
      var sheet := host.Read(Join(templates, "styles/" + file));
      assert copies[i..][0] == copies[i] && copies[i..][1..] == copies[i + 1..];
      if sheet.Err? {
        return Fail(sheet.error);
      }
      host.Write("styles/" + file, sheet.value);
      i := i + 1;
    }
    r := Pass;
  }

  /** The scripts action: read the manifest, spread it and overwrite `scripts`. */
  method SetScriptsAction(host: Host) returns (r: Outcome)
    modifies host
    ensures Stage(host.State(), r) == SetScriptsSpec(old(host.State()))
  {
    var pkg := host.Read(ManifestFile);
    if pkg.Err? {
      return Fail(pkg.error);
    }
    if !pkg.value.JsonDoc? {
      return Fail(Unparsable(Resolve(host.cwd, ManifestFile)));
    }
    host.Write(ManifestFile, JsonDoc(SpreadWith(pkg.value.doc, "scripts", Scripts)));
    r := Pass;
  }

  /** Runs the action of a custom step on the process's file system. */
  method Perform(host: Host, e: Effect, download: Result<string>) returns (r: Outcome)
    modifies host
    ensures Stage(host.State(), r) == ApplyEffect(old(host.State()), e, download)
  {
    match e
    case SetScripts =>
      r := SetScriptsAction(host);
    case CopyTemplate(source, target) =>
      ghost var copy := Copy(source, target, None);
      var text := host.Read(source);
      assert [copy][1..] == [];
      if text.Err? {
        return Fail(text.error);
      }
      assert CopyAll(host.State(), [copy]) == CopyAll(WriteFile(host.State(), target, text.value), []);
      host.Write(target, text.value);
      r := Pass;
    case Touch(target) =>
      var present := host.PathExists(target);
      if !present {
        host.Write(target, Plain(""));
      }
      r := Pass;
    case MakeDirectories(dirs) =>
      host.MakeDirectories(dirs);
      r := Pass;
    case WritePages(templates, typescript, name) =>
      r := WritePagesAction(host, templates, typescript, name);
    case WriteStyles(templates) =>
      r := WriteStylesAction(host, templates);
    case FetchGitignore(file) =>
      host.Issue(Download(file));
      if download.Err? {
        return Fail(download.error);
      }
      host.Write(".gitignore", Plain(download.value));
      r := Pass;
  }
}

=== FILE: next_properties.dfy ===
/** What the Next.js factory promises: the order, names and conditions of its steps, the page
    names it derives, and what its scripts and copy actions do to the files. */
module NextProperties {
  import opened Common
  import opened Paths
  import opened Json
  import opened Text
  import opened Steps
  import opened Environment
  import opened Generation
  import opened NextFramework

  function StepNames(steps: seq<Step>): (names: seq<string>)
    ensures |names| == |steps|
    ensures forall i :: 0 <= i < |steps| ==> names[i] == steps[i].name
  {
    if steps == [] then [] else [steps[0].name] + StepNames(steps[1..])
  }

  /** One dependency step, then seven custom steps with the fixed names, in this order; only the
      tsconfig step carries a condition, and it is `typescript !== false`. */
  lemma FactoryStepsShape(o: NextOptions, moduleDir: Path)
    ensures var steps := FactorySteps(o, moduleDir);
      && |steps| == 8
      && steps[0] == Dependency("Add initial dependencies", Packages(o))
      && (forall i :: 1 <= i < 8 ==> steps[i].Custom?)
      && StepNames(steps) == [
           "Add initial dependencies", "Add scripts to package.json", "Add next.config.js",
           "Initialize tsconfig.json", "Create the directories", "Create initial pages",
           "Create the initial styles", "Initialize .gitignore"]
      && (forall i :: 1 <= i < 8 ==> (steps[i].condition.Some? <==> i == 3))
      && steps[3].condition == Some(o.typescript != Some(false))
  {
  }

  /** The tsconfig step is enabled unless `typescript` is explicitly false, so it is enabled when
      `typescript` is absent, while the TypeScript packages are then not installed. */
  lemma TsconfigWithoutTypescript(o: NextOptions, moduleDir: Path)
    requires o.typescript.None?
    ensures FactorySteps(o, moduleDir)[3].condition == Some(true)
    ensures |Packages(o)| == 3
  {
  }

  /** `'_app.txt'`, `'_document.txt'` and `'index.txt'` become `.tsx` names with TypeScript and
      `.js` names without. */
  lemma PageNames(typescript: bool)
    ensures PageName(PageTemplates[0], typescript) == "_app." + PageExtension(typescript)
    ensures PageName(PageTemplates[1], typescript) == "_document." + PageExtension(typescript)
    ensures PageName(PageTemplates[2], typescript) == "index." + PageExtension(typescript)
  {
    TxtPageName("_app", typescript);
    TxtPageName("_document", typescript);
    TxtPageName("index", typescript);
    TemplateStems();
  }

  /** The pages step writes one page per template, in order, under `pages/` with the name
      `PageNames` gives, each rendered with the project name. */
  lemma PageCopiesShape(templates: Path, typescript: bool, name: string)
    ensures |PageCopies(templates, typescript, name)| == 3
    ensures forall k :: 0 <= k < 3 ==>
      && PageCopies(templates, typescript, name)[k].source == Join(templates, "pages/" + PageTemplates[k])
      && PageCopies(templates, typescript, name)[k].target == "pages/" + PageName(PageTemplates[k], typescript)
    ensures forall c :: c in PageCopies(templates, typescript, name) ==> c.render == Some(name)
  {
  }

  /** Each page template is its stem followed by `.txt`. */
  lemma TemplateStems()
    ensures PageTemplates[0] == "_app" + ".txt"
    ensures PageTemplates[1] == "_document" + ".txt"
    ensures PageTemplates[2] == "index" + ".txt"
  {
  }

  /** The first `txt` in `stem.txt` is the extension when `stem` holds no `tx`, so the page name
      is `stem.tsx` or `stem.js`. */
  lemma TxtPageName(stem: string, typescript: bool)
    requires forall j :: 0 <= j < |stem| - 1 ==> !(stem[j] == 't' && stem[j + 1] == 'x')
    ensures PageName(stem + ".txt", typescript) == stem + "." + PageExtension(typescript)
  {
    var s := stem + ".txt";
    var i := |stem| + 1;
    assert s[i..i + 3] == "txt";
    forall j | 0 <= j < i ensures !OccursAt(s, "txt", j) {
      assert s[j..j + 3][0] == s[j] && s[j..j + 3][1] == s[j + 1];
      if j < |stem| - 1 {
        assert s[j] == stem[j] && s[j + 1] == stem[j + 1];
      }
    }
    ReplaceFirstOccurrence(s, "txt", PageExtension(typescript), i);
    assert s[..i] == stem + ".";
    assert s[i + 3..] == [];
  }

  /** The scripts step on an object manifest: `scripts` becomes exactly `{dev, build, start}`,
      every other member keeps its value and position, and no other file changes. */
  lemma SetScriptsOnObject(w: World, ms: seq<Member>)
    requires WellFormed(w)
    requires Resolve(w.cwd, ManifestFile) in w.files
    requires w.files[Resolve(w.cwd, ManifestFile)] == JsonDoc(JObject(ms))
    requires DistinctKeys(ms)
    ensures var r := SetScriptsSpec(w);
      var p := Resolve(w.cwd, ManifestFile);
      && r.outcome.Pass?
      && r.world.paths == w.paths && r.world.cwd == w.cwd && r.world.calls == w.calls
      && r.world.files.Keys == w.files.Keys
      && (forall q :: q in w.files && q != p ==> r.world.files[q] == w.files[q])
      && r.world.files[p].JsonDoc? && r.world.files[p].doc.JObject?
      && var ms' := r.world.files[p].doc.members;
      && Lookup(ms', "scripts") == Some(Scripts)
      && (forall k :: k != "scripts" ==> Lookup(ms', k) == Lookup(ms, k))
      && Keys(ms') == (if "scripts" in Keys(ms) then Keys(ms) else Keys(ms) + ["scripts"])
      && DistinctKeys(ms')
  {
    SetScriptsWrites(w, ms);
    SetScriptsFrame(w, JsonDoc(JObject(Assign(ms, "scripts", Scripts))));
    AssignSpec(ms, "scripts", Scripts);
  }

  /** Rewriting an existing manifest changes no path and no other file. */
  lemma SetScriptsFrame(w: World, c: Content)
    requires WellFormed(w)
    requires Resolve(w.cwd, ManifestFile) in w.files
    ensures var w' := WriteFile(w, ManifestFile, c);
      var p := Resolve(w.cwd, ManifestFile);
      && w'.paths == w.paths && w'.files.Keys == w.files.Keys
      && w'.files[p] == c
      && (forall q :: q in w.files && q != p ==> w'.files[q] == w.files[q])
  {
  }

  /** On an object manifest the scripts step writes the members with `scripts` assigned. */
  lemma SetScriptsWrites(w: World, ms: seq<Member>)
    requires Resolve(w.cwd, ManifestFile) in w.files
    requires w.files[Resolve(w.cwd, ManifestFile)] == JsonDoc(JObject(ms))
    ensures SetScriptsSpec(w) == Stage(WriteFile(w, ManifestFile, JsonDoc(JObject(Assign(ms, "scripts", Scripts)))), Pass)
  {
    assert ReadFile(w, ManifestFile) == Ok(JsonDoc(JObject(ms)));
    assert SpreadWith(JObject(ms), "scripts", Scripts) == JObject(Assign(ms, "scripts", Scripts));
  }

  /** The scripts object has exactly the keys `dev`, `build` and `start`. */
  lemma ScriptsKeys()
    ensures Scripts.JObject? && Keys(Scripts.members) == ["dev", "build", "start"]
    ensures Lookup(Scripts.members, "dev") == Some(JString("next dev"))
    ensures Lookup(Scripts.members, "build") == Some(JString("next build"))
    ensures Lookup(Scripts.members, "start") == Some(JString("next start"))
  {
  }

  /** Without a manifest the scripts step throws and changes nothing. */
  lemma SetScriptsWithoutManifest(w: World)
    requires Resolve(w.cwd, ManifestFile) !in w.files
    ensures SetScriptsSpec(w) == Stage(w, Fail(Missing(Resolve(w.cwd, ManifestFile))))
  {
  }

  function Targets(cwd: Path, copies: seq<Copy>): set<Path> {
    set c | c in copies :: Resolve(cwd, c.target)
  }

  /** When every template is readable, the copies all succeed and write exactly their targets,
      without leaving the working directory. */
  lemma {:induction false} CopyAllReadable(w: World, copies: seq<Copy>)
    requires forall c :: c in copies ==> Resolve(w.cwd, c.source) in w.files
    ensures var r := CopyAll(w, copies);
      && r.outcome.Pass?
      && r.world.cwd == w.cwd && r.world.calls == w.calls
      && r.world.paths == w.paths + Targets(w.cwd, copies)
      && r.world.files.Keys == w.files.Keys + Targets(w.cwd, copies)
    decreases copies
  {
    if copies != [] {
      var c := copies[0];
      var read := ReadFile(w, c.source);
      var w1 := WriteFile(w, c.target, Produced(c, read.value));
      forall c' | c' in copies[1..] ensures Resolve(w1.cwd, c'.source) in w1.files {
        assert c' in copies;
      }
      CopyAllReadable(w1, copies[1..]);
      assert Targets(w.cwd, copies) == {Resolve(w.cwd, c.target)} + Targets(w.cwd, copies[1..]) by {
        forall q | q in Targets(w.cwd, copies) ensures q in {Resolve(w.cwd, c.target)} + Targets(w.cwd, copies[1..]) {
          var d :| d in copies && q == Resolve(w.cwd, d.target);
          if d != c {
            assert d in copies[1..];
          }
        }
      }
    }
  }

  /** Distinct targets, none of them a template that is read: the copies do not interfere. */
  predicate Independent(cwd: Path, copies: seq<Copy>) {
    && (forall i, j :: 0 <= i < j < |copies| ==> Resolve(cwd, copies[i].target) != Resolve(cwd, copies[j].target))
    && (forall i, j :: 0 <= i < |copies| && 0 <= j < |copies| ==> Resolve(cwd, copies[i].target) != Resolve(cwd, copies[j].source))
  }

  /** The copies after the first stay independent, and none of them writes or reads the first
      copy's target. */
  lemma IndependentTail(cwd: Path, copies: seq<Copy>)
    requires copies != [] && Independent(cwd, copies)
    ensures Independent(cwd, copies[1..])
    ensures forall k :: 0 <= k < |copies| - 1 ==>
      && Resolve(cwd, copies[0].target) != Resolve(cwd, copies[1..][k].target)
      && Resolve(cwd, copies[0].target) != Resolve(cwd, copies[1..][k].source)
  {
    var rest := copies[1..];
    forall i, j | 0 <= i < j < |rest| ensures Resolve(cwd, rest[i].target) != Resolve(cwd, rest[j].target) {
      assert rest[i] == copies[i + 1] && rest[j] == copies[j + 1];
    }
    forall i, j | 0 <= i < |rest| && 0 <= j < |rest| ensures Resolve(cwd, rest[i].target) != Resolve(cwd, rest[j].source) {
      assert rest[i] == copies[i + 1] && rest[j] == copies[j + 1];
    }
    forall k | 0 <= k < |rest| ensures Resolve(cwd, copies[0].target) != Resolve(cwd, rest[k].target) {
      assert rest[k] == copies[k + 1];
    }
    forall k | 0 <= k < |rest| ensures Resolve(cwd, copies[0].target) != Resolve(cwd, rest[k].source) {
      assert rest[k] == copies[k + 1];
    }
  }

  /** When every template is readable and the copies are independent, each target holds its
      template's content, rendered with the project name where the copy renders, and every other
      file keeps its content. */
  lemma {:induction false} CopyAllContents(w: World, copies: seq<Copy>)
    requires forall c :: c in copies ==> Resolve(w.cwd, c.source) in w.files
    requires Independent(w.cwd, copies)
    ensures var r := CopyAll(w, copies);
      && (forall i :: 0 <= i < |copies| ==>
            && Resolve(w.cwd, copies[i].target) in r.world.files
            && r.world.files[Resolve(w.cwd, copies[i].target)] == Produced(copies[i], w.files[Resolve(w.cwd, copies[i].source)]))
      && (forall q :: q in w.files && (forall i :: 0 <= i < |copies| ==> q != Resolve(w.cwd, copies[i].target)) ==>
            r.world.files[q] == w.files[q])
    decreases copies
  {
    if copies != [] {
      var c := copies[0];
      var t := Resolve(w.cwd, c.target);
      var w1 := WriteFile(w, c.target, Produced(c, w.files[Resolve(w.cwd, c.source)]));
      var rest := copies[1..];
      forall c' | c' in rest ensures Resolve(w1.cwd, c'.source) in w1.files {
        assert c' in copies;
      }
      IndependentTail(w.cwd, copies);
      CopyAllContents(w1, rest);
      var r := CopyAll(w, copies);
      assert r == CopyAll(w1, rest);
      forall i | 0 <= i < |copies|
        ensures Resolve(w.cwd, copies[i].target) in r.world.files
        ensures r.world.files[Resolve(w.cwd, copies[i].target)] == Produced(copies[i], w.files[Resolve(w.cwd, copies[i].source)])
      {
        if i > 0 {
          assert copies[i] == rest[i - 1];
        }
      }
      forall q | q in w.files && (forall i :: 0 <= i < |copies| ==> q != Resolve(w.cwd, copies[i].target))
        ensures r.world.files[q] == w.files[q]
      {
        assert q != t;
        forall k | 0 <= k < |rest| ensures q != Resolve(w1.cwd, rest[k].target) {
          assert rest[k] == copies[k + 1];
        }
      }
    }
  }

  /** A template that cannot be read at the start stops the copies: nothing is written. */
  lemma CopyAllFirstMissing(w: World, copies: seq<Copy>)
    requires copies != [] && Resolve(w.cwd, copies[0].source) !in w.files
    ensures CopyAll(w, copies) == Stage(w, Fail(Missing(Resolve(w.cwd, copies[0].source))))
  {
  }
}

=== FILE: paths.dfy ===
/** File-system paths as plain strings, joined and resolved the way Node's `path` module does
    for already-normalised inputs. */
module Paths {

  type Path = string

  predicate IsAbsolute(p: Path) {
    |p| > 0 && p[0] == '/'
  }

  /** `path.join(a, b)`: an empty side contributes nothing; otherwise one separator between them. */
  function Join(a: Path, b: Path): (r: Path)
    ensures a == "" ==> r == b
    ensures b == "" ==> r == a
    ensures a != "" && b != "" ==> |r| > |a| && r[..|a|] == a
  {
    if a == "" then b
    else if b == "" then a
    else if a[|a| - 1] == '/' then a + b
    else a + "/" + b
  }

  /** `path.resolve(p)` against the process working directory `cwd`. */
  function Resolve(cwd: Path, p: Path): (r: Path)
    ensures IsAbsolute(p) ==> r == p
    ensures !IsAbsolute(p) ==> r == Join(cwd, p)
  {
    if IsAbsolute(p) then p else Join(cwd, p)
  }

  lemma JoinKeepsAbsolute(a: Path, b: Path)
    requires IsAbsolute(a)
    ensures IsAbsolute(Join(a, b))
  {
  }
}

=== FILE: steps.dfy ===
/** The step declarations a framework factory appends to a generator: dependency steps handed to
    the package manager and custom steps carrying an action. */
module Steps {
  import opened Common
  import opened Paths

  /** A package to add: its name, the requested version (absent means the manager's default)
      and whether it is a development dependency (absent means not). */
  datatype PackageSpec = PackageSpec(name: string, version: Option<string>, dev: Option<bool>)

  /** The actions of the custom steps, as abstract operations on the file system. Each captures the
      values its closure captures in the source. */
  datatype Effect =
    | SetScripts                                          // rewrite package.json with new scripts
    | CopyTemplate(source: Path, target: Path)            // write `target` with the text of `source`
    | Touch(target: Path)                                 // create `target` empty if absent
    | MakeDirectories(dirs: seq<Path>)                    // `mkdir -p` every directory
    | WritePages(templates: Path, typescript: bool, name: string)  // render the page templates
    | WriteStyles(templates: Path)                        // copy the style sheets
    | FetchGitignore(file: string)                        // download a .gitignore and write it

  datatype Step =
    | Dependency(name: string, packages: seq<PackageSpec>)
    | Custom(name: string, condition: Option<bool>, effect: Effect)

  /** The append-only step array that a generator owns and its executor reads. */
  class StepList {
    var items: seq<Step>

    constructor ()
      ensures items == []
    {
      items := [];
    }

    method Append(s: Step)
      modifies this
      ensures items == old(items) + [s]
    {
      items := items + [s];
    }
  }
}

=== FILE: text.dfy ===
/** `String.prototype.replace` with a string pattern: only the first occurrence is replaced. */
module Text {

  predicate OccursAt(s: string, pat: string, i: nat) {
    i + |pat| <= |s| && s[i..i + |pat|] == pat
  }

  /** `s.replace(pat, rep)`, for a replacement that holds no `$` pattern. */
  function ReplaceFirst(s: string, pat: string, rep: string): (r: string)
    ensures |r| == |s| || |r| == |s| - |pat| + |rep|
  {
    if |pat| <= |s| && s[..|pat|] == pat then rep + s[|pat|..]
    else if s == [] then s
    else [s[0]] + ReplaceFirst(s[1..], pat, rep)
  }

  /** An occurrence in the tail `s[1..]` at `j` is an occurrence in `s` at `j + 1`. */
  lemma OccursInTail(s: string, pat: string, j: nat)
    requires s != []
    ensures OccursAt(s[1..], pat, j) <==> OccursAt(s, pat, j + 1)
  {
    if j + |pat| <= |s| - 1 {
      assert s[1..][j..j + |pat|] == s[j + 1..j + 1 + |pat|];
    }
  }

  /** Without an occurrence at the front, `replace` keeps the first character and goes on. */
  lemma ReplaceFirstSkip(s: string, pat: string, rep: string)
    requires s != [] && !OccursAt(s, pat, 0)
    ensures ReplaceFirst(s, pat, rep) == [s[0]] + ReplaceFirst(s[1..], pat, rep)
  {
    if |pat| <= |s| {
      assert s[0..|pat|] == s[..|pat|];
    }
  }

  /** When `pat` first occurs at `i`, exactly that occurrence is replaced. */
  lemma {:induction false} ReplaceFirstOccurrence(s: string, pat: string, rep: string, i: nat)
    requires OccursAt(s, pat, i)
    requires forall j :: 0 <= j < i ==> !OccursAt(s, pat, j)
    ensures ReplaceFirst(s, pat, rep) == s[..i] + rep + s[i + |pat|..]
  {
    if i == 0 {
      assert s[..|pat|] == s[0..|pat|] == pat;
    } else {
      var t := s[1..];
      forall j | 0 <= j < i - 1 ensures !OccursAt(t, pat, j) {
        OccursInTail(s, pat, j);
      }
      OccursInTail(s, pat, i - 1);
      ReplaceFirstOccurrence(t, pat, rep, i - 1);
      ReplaceFirstSkip(s, pat, rep);
      var head, tail := t[..i - 1], t[i - 1 + |pat|..];
      assert tail == s[i + |pat|..];
      assert [s[0]] + head == s[..i];
      calc {
        ReplaceFirst(s, pat, rep);
        [s[0]] + (head + rep + tail);
        ([s[0]] + head) + rep + tail;
      }
    }
  }

  /** When `pat` does not occur, the string is returned unchanged. */
  lemma {:induction false} ReplaceAbsent(s: string, pat: string, rep: string)
    requires forall j :: 0 <= j <= |s| ==> !OccursAt(s, pat, j)
    ensures ReplaceFirst(s, pat, rep) == s
  {
    assert !OccursAt(s, pat, 0);
    if s != [] {
      forall j | 0 <= j <= |s| - 1 ensures !OccursAt(s[1..], pat, j) {
        OccursInTail(s, pat, j);
      }
      ReplaceAbsent(s[1..], pat, rep);
    }
  }

  /** The first occurrence, wherever it is, is the one replaced. */
  lemma {:induction false} ReplaceFirstAnywhere(s: string, pat: string, rep: string)
    ensures forall i: nat :: OccursAt(s, pat, i) && (forall j :: 0 <= j < i ==> !OccursAt(s, pat, j)) ==>
      ReplaceFirst(s, pat, rep) == s[..i] + rep + s[i + |pat|..]
  {
    forall i: nat | OccursAt(s, pat, i) && (forall j :: 0 <= j < i ==> !OccursAt(s, pat, j))
      ensures ReplaceFirst(s, pat, rep) == s[..i] + rep + s[i + |pat|..]
    {
      ReplaceFirstOccurrence(s, pat, rep, i);
    }
  }

  /** Without an occurrence, nothing changes. */
  lemma {:induction false} ReplaceAbsentWhen(s: string, pat: string, rep: string)
    ensures (forall j :: 0 <= j <= |s| ==> !OccursAt(s, pat, j)) ==> ReplaceFirst(s, pat, rep) == s
  {
    if forall j :: 0 <= j <= |s| ==> !OccursAt(s, pat, j) {
      ReplaceAbsent(s, pat, rep);
    }
  }
}
